=== FILE: README.md ===
# biggles: renderer state, polygon clipping and scatter-plot construction

This project models two parts of the biggles plotting library and proves
properties of them.

**The libplot renderer (`biggles/libplot/renderer.py`).**

- `RendererState` holds the renderer's graphics attributes as a stack of
  frames. There is one current frame and a list of saved frames, most recent
  first.
  - `get` falls back through the saved frames to a default.
  - `save` pushes the current frame. `restore` pops it back.
- `sutherland_hodgman` clips a polygon to one half-plane.
- `LibplotRenderer.polygon` chains four such clips against the `cliprect`
  attribute, then draws the path: move to the first point, line to each
  following one.
- `_hexcolor` splits a colour integer into three 8-bit channels.
- `_pl_line_type` translates the line-type aliases.

**Scatter plots (`biggles/func.py`).**

- `get_log_plot_range` checks an explicit log-axis range, or computes one
  padded by a half below and a factor two above.
- `ScatterPlot` builds a plot from keyword options in this order:
  - `_set_pts` checks the sizes.
  - `_set_log_axes` fills in the log flags.
  - `_set_range_and_subpts` computes the ascending indices of the points
    visible on log axes.
  - `_set_markers_from_shorthand` resolves the `type` shorthand.
  - `_add_markers` adds items to the plot, in order:
    - symbols;
    - curves, one per run of consecutive visible indices, using the
      `itertools.groupby` in `_add_curve`;
    - error bars. On a log axis these go through `add_log_error_bars`, which
      keeps the bars whose top is above zero and clamps their bottoms.

**Modules.**

- `Base`: `Option`, `Result` and `Outcome`, and the error kinds. A Python
  exception is an `Err` or `Fail` value.
- `Clipping`: the half-plane clip as a specification function `Clip` and as
  the loop `SutherlandHodgman` proved against it. Also the four-clip chain
  `ClipToRect`.
- `GraphicsState`: the frame stack as the value `Frames`, with `Lookup`,
  `Assign`, `Pushed` and `Popped`. Also the class `RendererState`, whose
  methods are proved against those functions, and sequences of operations
  with scoped save/restore.
- `Renderer`: the colour channels, the line-type aliases, the polygon path,
  and the class `LibplotRenderer`. Its state field is a `RendererState`.
- `Func`: numpy-style helpers (`Where`, `Pick`, minimum, maximum, clamp), the
  log range, the log error bars, the size check and the marker choice.
- `Runs`: the run grouping of a visible-index mask.
- `Scatter`: the options, the visible-point computation, the items added to
  the plot, the whole construction as the function `Scatter`, and the class
  `ScatterPlot`. Its methods update the object's fields in the order of
  `__init__`.

The specification functions that the lemmas of the table talk about:
`Clipping.Intersection` (`sh_intersection`, biggles/libplot/renderer.py:34-42),
`Renderer.PlLineType` (`_pl_line_type.get(type, type)`,
biggles/libplot/renderer.py:132-141), `Renderer.PolygonDraw`
(`LibplotRenderer.polygon`, biggles/libplot/renderer.py:326-335),
`Func.LogBars` and `Func.LogErrorBars` (`add_log_error_bars`,
biggles/func.py:449-469), `Scatter.Shorthand` (`_set_markers_from_shorthand`,
biggles/func.py:291-305), `Scatter.Markers` (`_add_markers`,
biggles/func.py:329-345) and `Scatter.Scatter` (`__init__`,
biggles/func.py:201-211).

All numbers are `real`, with exact arithmetic: the model takes the inputs
as floats and leaves rounding out (see "Left out").

`clip` is modelled as numpy computes it for Python 2: the lower bound is
tested first. On a reversed range, where the floor `0.5*prange[0]` lies above
the ceiling `2*max(max(high), prange[1])`, a bottom below the floor becomes
the floor, above the ceiling (`Func.ReversedRangeFloorWins`).

On a logarithmic x axis, the x errors are passed to `add_log_error_bars`
with the axis `'y'` (`biggles/func.py:404`). The model keeps that: the bars
come out vertical, built from `y` and the x errors.

## Model

| member | source | states |
|---|---|---|
| Clipping.Place | biggles/libplot/renderer.py:39-42 | the built point has `boundary` as its `dim` coordinate and the given value as the other coordinate |
| Clipping.IntersectionOnBoundary | biggles/libplot/renderer.py:34-42 | the intersection lies on the clip line; when `p[dim] == s[dim]`, `g` stays 0 and the other coordinate is `s`'s |
| Clipping.IntersectionOnEdge | biggles/libplot/renderer.py:34-42 | on an edge that crosses the clip line, `g` is in [0, 1] and the intersection is the point at `g` along the edge |
| Clipping.LerpInside | biggles/libplot/renderer.py:30-31 | every point of a segment between two inside points is inside (the half-plane is convex) |
| Clipping.ClipPrefix | biggles/libplot/renderer.py:45-63 | after `n` edges the output has at most `2n` points, each inside the half-plane |
| Clipping.SutherlandHodgman | biggles/libplot/renderer.py:45-63 | empty input fails (`polygon[-1]`); otherwise the loop's output equals `Clip`, has at most twice as many points as the input, and every point satisfies `side*p[dim] >= side*boundary` |
| Clipping.ClipPrefixAllInside | biggles/libplot/renderer.py:45-63 | with every vertex inside, the first `n` edges give back the first `n` vertices |
| Clipping.ClipAllInside | biggles/libplot/renderer.py:45-63 | a polygon entirely inside comes back as the same sequence, in the same order |
| Clipping.ClipPrefixAllOutside | biggles/libplot/renderer.py:45-63 | with every vertex outside, no prefix of the edges emits anything |
| Clipping.ClipAllOutside | biggles/libplot/renderer.py:45-63 | a polygon entirely outside clips to the empty sequence |
| Clipping.ClipIdempotent | biggles/libplot/renderer.py:45-63 | clipping twice against the same half-plane equals clipping once |
| Clipping.ClipPrefixKeepsHalf | biggles/libplot/renderer.py:45-63 | a half-plane that contains every input vertex contains every point emitted by any prefix of the edges |
| Clipping.ClipKeepsHalf | biggles/libplot/renderer.py:45-63 | a clip never moves points out of a half-plane that contained the whole input, so later clips of the chain keep earlier ones |
| Clipping.ClipSquareExample | biggles/libplot/renderer.py:45-63 | the square (0,0) (10,0) (10,10) (0,10) clipped to x >= 5 is the right half (5,0) (10,0) (10,10) (5,10) |
| Clipping.ClipToRectInside | biggles/libplot/renderer.py:326-333 | the four clips (x >= cr[0], x <= cr[1], y >= cr[2], y <= cr[3]) leave only points inside the rectangle; the only failure is an empty polygon reaching a clip |
| Clipping.ClipToRectAllInside | biggles/libplot/renderer.py:326-333 | a non-empty polygon already inside the rectangle passes through the chain unchanged |
| Clipping.ClipToRectIdempotent | biggles/libplot/renderer.py:326-333 | clipping a non-empty clipped polygon to the same rectangle again changes nothing |
| GraphicsState.LookupSavedFirstFrom | biggles/libplot/renderer.py:78-81 | the saved-frame search answers from the first frame, from index `k` upward, that holds the name |
| GraphicsState.LookupSavedMissingFrom | biggles/libplot/renderer.py:78-82 | when no saved frame holds the name, the search answers `notfound` |
| GraphicsState.LookupOrder | biggles/libplot/renderer.py:75-82 | `get` answers from the current frame first, then from the first saved frame (index 0 upward) that holds the name, and `notfound` only when no frame holds it |
| GraphicsState.AssignLookup | biggles/libplot/renderer.py:72-73 | after `set`, `get` of that name answers the new value; every other name answers as before; the saved frames are unchanged |
| GraphicsState.LookupSavedShift | biggles/libplot/renderer.py:84-86 | searching a list with a frame pushed in front, from one index further on, is the same search |
| GraphicsState.PushedLookup | biggles/libplot/renderer.py:84-86 | immediately after `save`, every `get` answers as it did before |
| GraphicsState.PoppedAfterPushed | biggles/libplot/renderer.py:84-89 | `restore` after `save` gives back exactly the earlier current frame and saved list; what was set in between is dropped, not merged |
| GraphicsState.PoppedEmpty | biggles/libplot/renderer.py:88-89 | `restore` with no saved frame fails (`pop(0)` on an empty list) |
| GraphicsState.RunKeepsSaved | biggles/libplot/renderer.py:84-89 | a sequence of set/save/restore that never restores more than it saved cannot fail, and keeps the frames saved before it below the ones it pushed |
| GraphicsState.RunCons | biggles/libplot/renderer.py:72-89 | running `op` then `rest` is one step followed by running `rest`, and the first failure stops the run |
| GraphicsState.ScopeRestores | biggles/libplot/renderer.py:84-89 | `save; body; restore` around a balanced body leaves the frames exactly as they were |
| GraphicsState.RendererState.constructor | biggles/libplot/renderer.py:68-70 | a new state has an empty current frame and nothing saved |
| GraphicsState.RendererState.Set | biggles/libplot/renderer.py:72-73 | the new state is `Assign` of the old one: only the current frame changes |
| GraphicsState.RendererState.Get | biggles/libplot/renderer.py:75-82 | the loop over the saved frames returns `Lookup` of the state |
| GraphicsState.RendererState.Save | biggles/libplot/renderer.py:84-86 | the old current frame becomes `saved[0]` and the new current frame is empty |
| GraphicsState.RendererState.Restore | biggles/libplot/renderer.py:88-89 | with nothing saved it fails and changes nothing; otherwise the state is `Popped` of the old one |
| Renderer.Channels | biggles/libplot/renderer.py:92-97 | the three channels (bits 16-23, 8-15 and 0-7) are each in 0..255 |
| Renderer.PackChannels | biggles/libplot/renderer.py:92-97 | a 24-bit colour is recovered from its three channels |
| Renderer.ChannelsPack | biggles/libplot/renderer.py:92-97 | channels in 0..255 are recovered from the colour they pack into |
| Renderer.HexColor | biggles/libplot/renderer.py:92-97 | each channel scaled by `scale/255` lies in [0, scale] for a non-negative scale |
| Renderer.PlLineTypeIdempotent | biggles/libplot/renderer.py:132-141 | translating a line type twice is translating it once, and exactly `dot`, `dash` and `dashed` are changed |
| Renderer.Path | biggles/libplot/renderer.py:334-335 | the drawing moves to the first point, then draws a line to each following point in order |
| Renderer.PolygonDrawSpec | biggles/libplot/renderer.py:326-335 | with no `cliprect` the points are drawn unchanged; an empty polygon fails; with a rectangle every drawn point lies inside it, and a polygon already inside is drawn unchanged |
| Renderer.LibplotRenderer.constructor | biggles/libplot/renderer.py:156-161 | `open()` starts a fresh, empty state |
| Renderer.LibplotRenderer.Set | biggles/libplot/renderer.py:188-192 | `set` records the attribute in the state as `Assign` does |
| Renderer.LibplotRenderer.Get | biggles/libplot/renderer.py:194-195 | `get` answers the state's `Lookup` |
| Renderer.LibplotRenderer.SaveState | biggles/libplot/renderer.py:197-199 | `save_state` pushes the frames |
| Renderer.LibplotRenderer.RestoreState | biggles/libplot/renderer.py:201-203 | `restore_state` pops the frames, or fails with nothing saved and changes nothing |
| Renderer.LibplotRenderer.Polygon | biggles/libplot/renderer.py:326-335 | the method's four `sutherland_hodgman` calls and final path equal `PolygonDraw` of the points and the `cliprect` the state holds |
| Func.Where | biggles/func.py:426 | `numpy.where` on a mask: strictly ascending indices, exactly those where the mask is true |
| Func.WhereIndexOf | biggles/func.py:426 | every true position of the mask appears in the result of `where` |
| Func.MinOf | biggles/func.py:430 | `min` of a non-empty array is an element and is at most every element |
| Func.MaxOf | biggles/func.py:439 | `max` of a non-empty array is at least every element |
| Func.MaxOfAttained | biggles/func.py:439 | `max` of a non-empty array is one of its elements |
| Func.PickMinBelow | biggles/func.py:430 | the minimum of a selection is at most each selected value |
| Func.PickMinPositive | biggles/func.py:430 | the minimum of a selection of positive values is positive |
| Func.Clamp | biggles/func.py:463 | `clip` as numpy computes it under Python 2, testing the lower bound first: the result lies between the two bounds; between `lo` and `hi` when `lo <= hi`; a value below `lo` gives `lo`, even when `lo > hi`; a value at least `lo` and above `hi` gives `hi`; a value inside [lo, hi] is unchanged |
| Func.LogPlotRange | biggles/func.py:411-447 | a returned range has at least two elements; the only errors are a short range, a bound <= 0, and no positive value |
| Func.LogPlotRangeExplicit | biggles/func.py:415-424 | an explicit range with fewer than 2 elements, or with a bound <= 0, is an error; otherwise it is returned unchanged, and with `get_good` the mask holds exactly the indices with `lo <= x <= hi`, ascending |
| Func.MinPositiveBelow | biggles/func.py:426-430 | `min(x[w])` over the positive values is positive and at most a given positive value |
| Func.MinShrunkBelow | biggles/func.py:431-435 | at a positive point where `x - err` stays positive, the minimum of `x - err` over such points exists and is at most it |
| Func.MinShrunkPositive | biggles/func.py:431-435 | the minimum of `x - err` over the positive points where it stays positive is itself positive |
| Func.PositiveMinBounds | biggles/func.py:426-430 | `min(x[w])` is positive and at most every positive value |
| Func.ShrunkBounds | biggles/func.py:431-435 | the minimum of `x - err` is positive, and exists and is at most `x - err` at every positive point where that stays positive |
| Func.LowestPositiveBounds | biggles/func.py:426-435 | the unpadded lower value is positive, at most every positive value, and at most `x - err` where that stays positive |
| Func.PositiveMinAttained | biggles/func.py:426-430 | `min(x[w])` is one of the positive values |
| Func.ShrunkMinAttained | biggles/func.py:431-435 | the minimum of `x - err`, when it exists, is `x - err` at a positive point where that stays positive |
| Func.LowestPositiveAttained | biggles/func.py:426-435 | the unpadded lower value is a positive value, or `x - err` at a positive point where that stays positive |
| Func.HighestAttained | biggles/func.py:437-439 | the unpadded upper value is `x + err` (or `x`) at some point |
| Func.HighestBounds | biggles/func.py:437-439 | the unpadded upper value is at least `x + err` (or `x`) at every point, positive or not |
| Func.LogPlotRangeComputed | biggles/func.py:426-447 | with no range given, it fails exactly when no value is > 0; otherwise `0 < low`, `low <= 0.5*x` and `low < x` for every positive value, `low <= 0.5*(x - err)` where that stays positive, `2*(x + err) <= high` at every point; `low` is `0.5*x` at a positive point or `0.5*(x - err)` at a positive point where that stays positive, and `high` is `2*(x + err)` at some point; `get_good` returns the positive indices |
| Func.LogPlotRangeOrdered | biggles/func.py:437-442 | with non-negative errors the computed range has `low < high` |
| Func.LogBarsNone | biggles/func.py:458-459 | no bars are added exactly when no point has `center + err > 0` |
| Func.LogBarsKept | biggles/func.py:458-461 | the kept points are exactly those with `center + err > 0`, in their original order; each top is `center + err`, unchanged and positive |
| Func.LogBarsLow | biggles/func.py:449-463 | each kept bottom is its `center - err` clipped to the floor `0.5*prange[0]` and the ceiling `2*max(max(high), prange[1])`, and the ceiling is positive |
| Func.ClippedBottoms | biggles/func.py:463 | bottoms clipped to [lo, hi] are at most the larger bound; between the bounds when `lo <= hi`; equal to `lo` whenever `center - err` is below `lo`, even above `hi`; unchanged when already inside; positive when both bounds are |
| Func.LogBarsPositive | biggles/func.py:449-469 | on a range starting above zero every kept bar has its bottom and its top above zero, so no bar reaches zero on a log axis |
| Func.ReversedRangeFloorWins | biggles/func.py:449-469 | the point (150, 1) with y error 0.5 and the reversed range [100, 1] gives the bar from 50 to 1.5: its bottom is the floor 50, above the ceiling 3 |
| Func.CheckSizes | biggles/func.py:232-248 | the check passes exactly when `x` and `y` have one size and each present `xerr`/`yerr` has that size too; any failure is a size mismatch |
| Func.MarkerChoice | biggles/func.py:339-343 | something is always drawn; a curve exactly when a line type is set; symbols whenever a symbol type is set, and both only when both are set |
| Func.MarkerChoiceAsWrittenFails | biggles/func.py:333-334 | as written, `self['linetype']` raises when the key is absent, even when `type` set a symbol; the corrected choice draws symbols there |
| Runs.InFlatten | biggles/func.py:367-369 | every element of every run appears in the concatenation of the runs |
| Runs.GroupByOffset | biggles/func.py:367-369 | concatenating the runs gives the mask back, no run is empty, and only the empty mask has no runs |
| Runs.GroupsShape | biggles/func.py:367 | each element joins the run of the element before it exactly when it is one more |
| Runs.GroupsConsecutive | biggles/func.py:367-369 | each run holds consecutive integers |
| Runs.GroupsSplitAtGaps | biggles/func.py:367-369 | a new run starts exactly where the mask does not step up by one |
| Runs.RunsOfIncreasing | biggles/func.py:367-369 | in an ascending mask each run ends more than one below where the next begins |
| Runs.GroupByOffsetExample | biggles/func.py:367-369 | the mask [0, 1, 2, 5, 6, 9] runs as [0, 1, 2], [5, 6], [9] |
| Scatter.RangeAndMask | biggles/func.py:257-289 | a result has indices within the points and ranges fit for the log axes; the only errors are the three range errors and no point in range |
| Scatter.LogRangeLowPositive | biggles/func.py:415-447 | a log range, explicit or computed, starts above zero |
| Scatter.MaskedIndices | biggles/func.py:284-287 | an empty mask is the "no points are in range" error; a non-empty one is kept, ascending |
| Scatter.RangeAndMaskVisible | biggles/func.py:271-287 | with neither axis log there is no mask and the ranges pass through; otherwise the mask is non-empty and ascending, each log axis gets its `get_log_plot_range`, and an index is visible exactly when it is strictly above the low bound on each log axis |
| Scatter.RangeAndMaskErrors | biggles/func.py:271-287 | an error of `get_log_plot_range` on the x axis (tried first when both are log) or else on the y axis is raised unchanged; with usable ranges on every log axis it fails exactly when no point lies strictly above the low bound of each log axis |
| Scatter.RangeAndMaskPositive | biggles/func.py:271-287 | no visible point is zero or below on a log axis |
| Scatter.BoundaryPointHidden | biggles/func.py:277-279 | with x = [1, 2, 3] and the explicit log range [1, 10], the point at the low bound is not visible: the indices are [1, 2] |
| Scatter.WhereSmall | biggles/func.py:279 | `where` on [false, true, true] is [1, 2] |
| Scatter.ShorthandMarkers | biggles/func.py:291-305 | a `type` from `LINE_TYPES` alone draws a curve and no symbols; any other `type` draws symbols and no curve; with no type, symbols are drawn |
| Scatter.LineTypesArePlotterNames | biggles/func.py:27-28 | every name in `LINE_TYPES` reaches the plotter unchanged by the alias table |
| Scatter.RunsInRange | biggles/func.py:365-369 | every run of an in-range mask indexes within the points |
| Scatter.PickFlatten | biggles/func.py:367-369 | picking each run and concatenating the pieces equals picking the whole mask |
| Scatter.CurvesDrawVisible | biggles/func.py:358-369 | on a mask, one curve per run, each with the line type; read one after the other, the curves visit exactly the visible points, in order, once each |
| Scatter.YErrorBarItemsShape | biggles/func.py:396-401 | y errors give one symmetric bar set on a linear axis and at most one set on a log axis, whose bars are above zero |
| Scatter.XErrorBarItemsShape | biggles/func.py:402-407 | x errors give one symmetric bar set on a linear axis; on a log axis, at most one set of vertical bars above zero, since the axis passed is `'y'` |
| Scatter.ErrorBarItemsShape | biggles/func.py:372-407 | no errors give no bars; on linear axes there is one symmetric set per error array, y before x; on log axes at most one set per array, every vertical bar above zero |
| Scatter.LogErrorBarsAbove | biggles/func.py:449-469 | the `'y'` log bars are vertical bars whose bottoms and tops are above zero when the range starts above zero |
| Scatter.SettledOptions | biggles/func.py:201-211 | the options after construction: log flags filled in, marker types from the shorthand, the default symbol set when symbols are drawn; the errors, ranges and `type` are unchanged, and every settled set of options draws symbols or a line |
| Scatter.ScatterFails | biggles/func.py:201-211 | with the corrected marker choice, construction fails exactly when the sizes disagree or `_set_range_and_subpts` raises; with linear axes and matching sizes it succeeds; the error kinds are listed |
| Scatter.MarksPositiveConcat | biggles/func.py:339-345 | items with positive coordinates on the log axes stay so when lists of them are joined |
| Scatter.PickedPositive | biggles/func.py:356 | picking only indices whose values are positive gives positive values |
| Scatter.SymbolPositive | biggles/func.py:352-356 | the symbols drawn at the visible indices are above zero on each log axis when every visible point is |
| Scatter.CurvesPositive | biggles/func.py:365-369 | every curve drawn through a run of visible indices is above zero on each log axis when every visible point is |
| Scatter.MarkersPositive | biggles/func.py:329-369 | when the visible points are positive on the log axes, every symbol and curve that `_add_markers` adds has positive coordinates there |
| Scatter.ErrorBarItemsNoMarks | biggles/func.py:372-407 | the error-bar step adds only error bars, no points or curves |
| Scatter.ScatterLogPositive | biggles/func.py:201-211 | every symbol and curve a successful construction adds lies above zero on each log axis |
| Scatter.ScatterPlot.constructor | biggles/func.py:203 | `self.update(keys)` on a new object: the options are the keys, nothing is set or added yet |
| Scatter.ScatterPlot.SetPts | biggles/func.py:225-251 | the points are stored; the outcome is the size check; the errors are stored only when every size agrees |
| Scatter.ScatterPlot.SetLogAxes | biggles/func.py:253-255 | an absent log flag becomes false, and a present one is kept |
| Scatter.ScatterPlot.SetRangeAndSubpts | biggles/func.py:257-289 | on success the indices and ranges are those of `RangeAndMask`; on error they are unchanged and the error is raised |
| Scatter.ScatterPlot.SetMarkersFromShorthand | biggles/func.py:291-305 | `type` sets `linetype` when it names a line type and `symboltype` otherwise; nothing changes without it |
| Scatter.ScatterPlot.AddSymbols | biggles/func.py:347-356 | an unset symbol type becomes `'filled circle'`; one Points item of the visible points is added |
| Scatter.ScatterPlot.AddCurve | biggles/func.py:358-369 | the loop over the runs adds one curve per run, in order, or one curve of all the points without a mask |
| Scatter.ScatterPlot.AddErrorBars | biggles/func.py:372-408 | adds the y error bars, then the x error bars |
| Scatter.ScatterPlot.AddYErrorBars | biggles/func.py:396-401 | adds the y error bars: through `add_log_error_bars` on a log y axis, when any survive, else symmetric |
| Scatter.ScatterPlot.AddXErrorBars | biggles/func.py:402-407 | adds the x error bars: through `add_log_error_bars` with axis `'y'` on a log x axis, when any survive, else symmetric |
| Scatter.ScatterPlot.AddMarkers | biggles/func.py:329-345 | adds symbols, then curves, then error bars, as `Markers` lists them; the symbol type becomes `'filled circle'` when symbols are drawn without one, and the other options are unchanged |
| Scatter.ScatterPlot.Build | biggles/func.py:201-211 | `__init__` after `update`: it succeeds exactly when `Scatter` does, raising the same error otherwise, and on success adds exactly the items `Scatter` lists; the points are always stored; a size mismatch leaves the options, the errors, the items, the visible indices and the ranges unchanged; a range failure after it leaves the items, the visible indices and ranges unchanged, with the errors set and the log flags filled in; on success the errors are the keys' errors, the options are `SettledOptions` of the keys, and the visible indices and ranges are those of `RangeAndMask` |

## Left out

- The plotting backend: the `Plotter` calls (`move`, `lineto`, `gsave`/`grestore`, `begin_page`, `space`, `clear`, `flush`) and every other drawing and device call. They are foreign calls. `Polygon` returns the move/line path instead of drawing it.
- The style dispatch in `LibplotRenderer.set` (colour, line type, width and font handlers). Only the state update is modelled, together with the colour and line-type translation those handlers use.
- `LibplotRenderer.curve`, `clipped_curve`, the symbol, circle, text and density commands, `tex2libplot`, and the font metrics. These are drawing and text shaping done by the backend.
- `ScreenRenderer`, `PSRenderer`, `ImageRenderer` and `_str_size_to_pts`. These are device set-up and inexact unit parsing.
- `_set_plot_object`, `show`, `get_plot` and `plot`. These are reflection on the plot object and display. The modelled `ScatterPlot` records the items it adds in `added`.
- The keyword pass-through to `Points`, `Curve` and the error-bar objects, and the `errlinetype`/`errlinewidth`/`errlinecolor` copying. An item records only its data and marker type.
- numpy array conversion (`ndmin=1`). Inputs are sequences; a scalar error becomes a one-element array, which fails the size check unless there is exactly one point, as `Func.CheckSizes` models.
- An explicit `None` keyword value is not told apart from an absent key. Both are `None` in `Options`.
- `Renderer.PolygonDraw`: a `cliprect` value that is not a four-number rectangle is modelled as the error `BadClipRect`. Python would fail on the indexing in some other way.
- `Scatter.ScatterPlot.AddErrorBars`: its two halves are separate methods, `AddYErrorBars` and `AddXErrorBars`.
- `Scatter.ScatterPlot.AddMarkers`, `Scatter.ScatterPlot.Build`, `Scatter.Scatter`, `Scatter.ScatterFails` and `Scatter.ScatterLogPositive` use the corrected marker choice. As written, `__init__` also raises `KeyError` when `linetype` or `symboltype` is absent after the shorthand; that failure is modelled by `Func.MarkerChoiceAsWritten` (see Findings).
- `Clipping.Intersection`: under Python 2, `/` on integer coordinates floor-divides, so the edge (0,0) to (10,10) clipped at x >= 5 meets the line at (5,0) in the source, not (5,5). The model uses true division, as Python 3 or float coordinates give.
- `Clipping.ClipPrefix`, `Clipping.SutherlandHodgman`: floating-point rounding can put a computed intersection slightly outside the half-plane. The model uses exact arithmetic, so its "every point is inside" holds for exact values only.
- `Renderer.HexColor`: the default `scale=1` is not modelled; callers pass the scale.
- `Scatter.ScatterPlot.SetPts`: `x` and `y` are kept even when the sizes disagree, as the source does. The errors are then left unchanged.

## Findings

| source | as written | input that shows it | evidently intended | confidence | as-written member | corrected member |
|---|---|---|---|---|---|---|
| biggles/func.py:333-343 | `_add_markers` reads `self['linetype']` and `self['symboltype']` by indexing, which raises `KeyError` when the key was never given | `ScatterPlot(x, y, type='filled circle')`: the shorthand sets only `symboltype`, so `self['linetype']` raises | an absent key counts as `None`, as the test `linetype is not None` and the comment about defaulting to symbols say | not executed | Func.MarkerChoiceAsWrittenFails | Func.MarkerChoice |

=== FILE: Base.dfy ===
/** Failure-carrying values shared by the renderer and the plotting helpers.
    Python raises exceptions where these carry an error value instead. */
module Base {

  datatype Option<+T> = None | Some(value: T) {
    function GetOr(default: T): T {
      match this
      case Some(v) => v
      case None => default
    }
  }

  datatype Result<+T> = Ok(value: T) | Err(error: Error)

  datatype Outcome = Pass | Fail(error: Error)

  /** The exceptions the modelled code can raise. */
  datatype Error =
    | EmptyPolygon        // IndexError: polygon[-1] or pts[0] on an empty list
    | NoSavedFrame        // IndexError: saved.pop(0) on an empty list
    | BadClipRect         // a "cliprect" attribute that is not a rectangle
    | SizeMismatch        // ValueError: x, y, xerr, yerr of different sizes
    | ShortRange          // ValueError: expected [xmin,xmax] for input range
    | NonPositiveRange    // ValueError: cannot use plot range < 0 for log plots
    | NoPositiveValues    // ValueError: No values are greater than zero in log plot
    | NoPointsInRange     // ValueError: no points are in range
    | MissingKey          // KeyError: a dict entry read with [] that was never set
}

=== FILE: Clipping.dfy ===
/** One-half-plane Sutherland–Hodgman polygon clipping, and the chain of four
    such clips that keeps a polygon inside a clip rectangle. */
module Clipping {
  import opened Base

  datatype Point = Point(x: real, y: real)

  /** A coordinate index: 0 is x, 1 is y. */
  type Dim = d: nat | d < 2

  function Coord(p: Point, dim: Dim): real {
    if dim == 0 then p.x else p.y
  }

  /** The other coordinate index (`not dim` in the source). */
  function Other(dim: Dim): Dim {
    1 - dim
  }

  /** The point whose `dim` coordinate is `a` and whose other coordinate is `b`. */
  function Place(dim: Dim, a: real, b: real): (q: Point)
    ensures Coord(q, dim) == a && Coord(q, Other(dim)) == b
  {
    if dim == 0 then Point(a, b) else Point(b, a)
  }

  /** The point `s + g * (p - s)` on the line through `s` and `p`. */
  function Lerp(s: Point, p: Point, g: real): Point {
    Point(s.x + g * (p.x - s.x), s.y + g * (p.y - s.y))
  }

  /** sh_inside: `p` lies in the closed half-plane `side * p[dim] >= side * boundary`. */
  predicate Inside(p: Point, dim: Dim, boundary: real, side: real) {
    side * Coord(p, dim) >= side * boundary
  }

  /** The interpolation parameter of sh_intersection; 0 for an edge that
      does not move along `dim`, so nothing is divided by zero. */
  function Param(s: Point, p: Point, dim: Dim, boundary: real): real {
    if Coord(p, dim) != Coord(s, dim) then
      (boundary - Coord(s, dim)) / (Coord(p, dim) - Coord(s, dim))
    else 0.0
  }

  /** sh_intersection: where the edge from `s` to `p` meets the line `p[dim] == boundary`. */
  function Intersection(s: Point, p: Point, dim: Dim, boundary: real): Point {
    var g := Param(s, p, dim, boundary);
    var mid := Other(dim);
    Place(dim, boundary, Coord(s, mid) + g * (Coord(p, mid) - Coord(s, mid)))
  }

  /** The computed point always lies on the clip line; a zero-length step
      along `dim` takes the other coordinate from `s`. */
  lemma IntersectionOnBoundary(s: Point, p: Point, dim: Dim, boundary: real)
    ensures Coord(Intersection(s, p, dim, boundary), dim) == boundary
    ensures Coord(p, dim) == Coord(s, dim) ==>
              Coord(Intersection(s, p, dim, boundary), Other(dim)) == Coord(s, Other(dim))
  {
  }

  lemma MulNonneg(u: real, v: real)
    requires u >= 0.0 && v >= 0.0
    ensures u * v >= 0.0
  {
  }

  lemma DivUnit(n: real, d: real)
    requires 0.0 <= n <= d && d > 0.0
    ensures 0.0 <= n / d <= 1.0
  {
    var q := n / d;
    assert q * d == n;
  }

  lemma ParamBetween(a: real, c: real, b: real)
    requires a != c
    requires a <= b <= c || c <= b <= a
    ensures 0.0 <= (b - a) / (c - a) <= 1.0
  {
    if c > a {
      DivUnit(b - a, c - a);
    } else {
      DivUnit(a - b, a - c);
      assert (b - a) / (c - a) == (a - b) / (a - c);
    }
  }

  /** On an edge that crosses the clip line, the intersection is a point of
      the edge itself: `s + g * (p - s)` for some `g` in [0, 1]. */
  lemma IntersectionOnEdge(s: Point, p: Point, dim: Dim, boundary: real, side: real)
    requires Inside(s, dim, boundary, side) != Inside(p, dim, boundary, side)
    ensures 0.0 <= Param(s, p, dim, boundary) <= 1.0
    ensures Intersection(s, p, dim, boundary) == Lerp(s, p, Param(s, p, dim, boundary))
  {
    var a, c := Coord(s, dim), Coord(p, dim);
    assert a != c;
    if side > 0.0 {
      assert (a >= boundary) == (side * a >= side * boundary);
      assert (c >= boundary) == (side * c >= side * boundary);
    } else if side < 0.0 {
      assert (a <= boundary) == (side * a >= side * boundary);
      assert (c <= boundary) == (side * c >= side * boundary);
    }
    ParamBetween(a, c, boundary);
    var g := Param(s, p, dim, boundary);
    assert g * (c - a) == boundary - a;
    assert Coord(Lerp(s, p, g), dim) == a + g * (c - a);
  }

  /** Scaling a point of a segment scales its ends: `k * (u + g * (v - u))`
      is the same mix of `k * u` and `k * v`. */
  lemma ScaleLerp(k: real, u: real, v: real, g: real)
    ensures k * (u + g * (v - u)) == (1.0 - g) * (k * u) + g * (k * v)
  {
    calc {
      k * (u + g * (v - u));
      k * u + k * (g * (v - u));
      k * u + g * (k * v) - g * (k * u);
    }
  }

  /** A mix of two values at or above `b` is at or above `b`. */
  lemma MixAbove(a: real, c: real, b: real, g: real)
    requires 0.0 <= g <= 1.0 && a >= b && c >= b
    ensures (1.0 - g) * a + g * c >= b
  {
    MulNonneg(1.0 - g, a - b);
    MulNonneg(g, c - b);
    assert (1.0 - g) * a + g * c - b == (1.0 - g) * (a - b) + g * (c - b);
  }

  /** Half-planes are convex. */
  lemma LerpInside(s: Point, p: Point, g: real, dim: Dim, boundary: real, side: real)
    requires 0.0 <= g <= 1.0
    requires Inside(s, dim, boundary, side) && Inside(p, dim, boundary, side)
    ensures Inside(Lerp(s, p, g), dim, boundary, side)
  {
    var u, v := Coord(s, dim), Coord(p, dim);
    assert Coord(Lerp(s, p, g), dim) == u + g * (v - u);
    ScaleLerp(side, u, v, g);
    MixAbove(side * u, side * v, side * boundary, g);
  }

  /** What one edge, from `s` to `p`, contributes to the clipped polygon:
      the crossing point if the edge crosses the line, then `p` if it is inside. */
  function EdgeOut(s: Point, p: Point, dim: Dim, boundary: real, side: real): seq<Point> {
    (if Inside(s, dim, boundary, side) != Inside(p, dim, boundary, side)
     then [Intersection(s, p, dim, boundary)] else [])
    + (if Inside(p, dim, boundary, side) then [p] else [])
  }

  /** The vertex before vertex `i` of a closed polygon (the last one for `i == 0`). */
  function Prev(poly: seq<Point>, i: nat): Point
    requires i < |poly|
  {
    if i == 0 then poly[|poly| - 1] else poly[i - 1]
  }

  /** The output after the first `n` edges have been processed. Every point
      it holds is inside the half-plane, and each edge adds at most two. */
  function ClipPrefix(poly: seq<Point>, n: nat, dim: Dim, boundary: real, side: real): (r: seq<Point>)
    requires n <= |poly|
    ensures |r| <= 2 * n
    ensures forall k :: 0 <= k < |r| ==> Inside(r[k], dim, boundary, side)
  {
    if n == 0 then []
    else
      IntersectionOnBoundary(Prev(poly, n - 1), poly[n - 1], dim, boundary);
      ClipPrefix(poly, n - 1, dim, boundary, side)
      + EdgeOut(Prev(poly, n - 1), poly[n - 1], dim, boundary, side)
  }

  /** The polygon clipped to the half-plane `side * p[dim] >= side * boundary`. */
  function Clip(poly: seq<Point>, dim: Dim, boundary: real, side: real): seq<Point> {
    if poly == [] then [] else ClipPrefix(poly, |poly|, dim, boundary, side)
  }

  /** sutherland_hodgman: walks the edges (last vertex to first, then in
      order), appending crossings and inside vertices. An empty polygon has no
      last vertex to start from and fails. */
  method SutherlandHodgman(polygon: seq<Point>, dim: Dim, boundary: real, side: real)
    returns (r: Result<seq<Point>>)
    ensures polygon == [] ==> r == Err(EmptyPolygon)
    ensures polygon != [] ==> r == Ok(Clip(polygon, dim, boundary, side))
    ensures r.Ok? ==> |r.value| <= 2 * |polygon|
    ensures r.Ok? ==> forall k :: 0 <= k < |r.value| ==> Inside(r.value[k], dim, boundary, side)
  {
    if |polygon| == 0 {
      return Err(EmptyPolygon);
    }
    var out: seq<Point> := [];
    var s := polygon[|polygon| - 1];
    var sInside := Inside(s, dim, boundary, side);
    var i := 0;
    while i < |polygon|
      invariant 0 <= i <= |polygon|
      invariant out == ClipPrefix(polygon, i, dim, boundary, side)
      invariant i < |polygon| ==> s == Prev(polygon, i)
      invariant sInside == Inside(s, dim, boundary, side)
    {
      var p := polygon[i];
      var pInside := Inside(p, dim, boundary, side);
      var crosses := (pInside && !sInside) || (!pInside && sInside);
      if crosses {
        out := out + [Intersection(s, p, dim, boundary)];
      }
      if pInside {
        out := out + [p];
      }
      s := p;
      sInside := pInside;
      i := i + 1;
    }
    return Ok(out);
  }

  /** Fully inside: every edge contributes just its end vertex. */
  lemma {:induction false} ClipPrefixAllInside(poly: seq<Point>, n: nat, dim: Dim, boundary: real, side: real)
    requires n <= |poly|
    requires forall k :: 0 <= k < |poly| ==> Inside(poly[k], dim, boundary, side)
    ensures ClipPrefix(poly, n, dim, boundary, side) == poly[..n]
  {
    if n > 0 {
      ClipPrefixAllInside(poly, n - 1, dim, boundary, side);
      assert poly[..n] == poly[..n - 1] + [poly[n - 1]];
    }
  }

  /** A polygon entirely inside the half-plane comes back as the same vertex sequence. */
  lemma ClipAllInside(poly: seq<Point>, dim: Dim, boundary: real, side: real)
    requires forall k :: 0 <= k < |poly| ==> Inside(poly[k], dim, boundary, side)
    ensures Clip(poly, dim, boundary, side) == poly
  {
    if poly != [] {
      ClipPrefixAllInside(poly, |poly|, dim, boundary, side);
    }
  }

  lemma {:induction false} ClipPrefixAllOutside(poly: seq<Point>, n: nat, dim: Dim, boundary: real, side: real)
    requires n <= |poly|
    requires forall k :: 0 <= k < |poly| ==> !Inside(poly[k], dim, boundary, side)
    ensures ClipPrefix(poly, n, dim, boundary, side) == []
  {
    if n > 0 {
      ClipPrefixAllOutside(poly, n - 1, dim, boundary, side);
    }
  }

  /** A polygon entirely outside the half-plane clips to nothing. */
  lemma ClipAllOutside(poly: seq<Point>, dim: Dim, boundary: real, side: real)
    requires forall k :: 0 <= k < |poly| ==> !Inside(poly[k], dim, boundary, side)
    ensures Clip(poly, dim, boundary, side) == []
  {
    if poly != [] {
      ClipPrefixAllOutside(poly, |poly|, dim, boundary, side);
    }
  }

  /** Clipping twice against the same half-plane is clipping once. */
  lemma ClipIdempotent(poly: seq<Point>, dim: Dim, boundary: real, side: real)
    ensures Clip(Clip(poly, dim, boundary, side), dim, boundary, side) == Clip(poly, dim, boundary, side)
  {
    ClipAllInside(Clip(poly, dim, boundary, side), dim, boundary, side);
  }

  /** Every point of the output lies in every half-plane (on either axis)
      that holds all the input vertices: crossings lie on input edges. */
  lemma {:induction false} ClipPrefixKeepsHalf(poly: seq<Point>, n: nat, dim: Dim, boundary: real, side: real,
                                               dim2: Dim, boundary2: real, side2: real)
    requires n <= |poly|
    requires forall k :: 0 <= k < |poly| ==> Inside(poly[k], dim2, boundary2, side2)
    ensures forall q :: q in ClipPrefix(poly, n, dim, boundary, side) ==> Inside(q, dim2, boundary2, side2)
  {
    if n > 0 {
      ClipPrefixKeepsHalf(poly, n - 1, dim, boundary, side, dim2, boundary2, side2);
      var s, p := Prev(poly, n - 1), poly[n - 1];
      if Inside(s, dim, boundary, side) != Inside(p, dim, boundary, side) {
        IntersectionOnEdge(s, p, dim, boundary, side);
        LerpInside(s, p, Param(s, p, dim, boundary), dim2, boundary2, side2);
      }
    }
  }

  lemma ClipKeepsHalf(poly: seq<Point>, dim: Dim, boundary: real, side: real,
                      dim2: Dim, boundary2: real, side2: real)
    requires forall k :: 0 <= k < |poly| ==> Inside(poly[k], dim2, boundary2, side2)
    ensures forall q :: q in Clip(poly, dim, boundary, side) ==> Inside(q, dim2, boundary2, side2)
  {
    if poly != [] {
      ClipPrefixKeepsHalf(poly, |poly|, dim, boundary, side, dim2, boundary2, side2);
    }
  }

  /** The square (0,0) (10,0) (10,10) (0,10) clipped to x >= 5. */
  lemma ClipSquareExample()
    ensures Clip([Point(0.0, 0.0), Point(10.0, 0.0), Point(10.0, 10.0), Point(0.0, 10.0)], 0, 5.0, 1.0)
         == [Point(5.0, 0.0), Point(10.0, 0.0), Point(10.0, 10.0), Point(5.0, 10.0)]
  {
    var sq := [Point(0.0, 0.0), Point(10.0, 0.0), Point(10.0, 10.0), Point(0.0, 10.0)];
    assert ClipPrefix(sq, 1, 0, 5.0, 1.0) == [];
    assert ClipPrefix(sq, 2, 0, 5.0, 1.0) == [Point(5.0, 0.0), Point(10.0, 0.0)];
    assert ClipPrefix(sq, 3, 0, 5.0, 1.0) == [Point(5.0, 0.0), Point(10.0, 0.0), Point(10.0, 10.0)];
  }

  // ---------------------------------------------------------------------
  // The clip rectangle chain of LibplotRenderer.polygon

  /** A clip rectangle as stored in the "cliprect" attribute: cr[0] .. cr[3]. */
  datatype Rect = Rect(xmin: real, xmax: real, ymin: real, ymax: real)

  predicate InRect(p: Point, cr: Rect) {
    Inside(p, 0, cr.xmin, 1.0) && Inside(p, 0, cr.xmax, -1.0)
    && Inside(p, 1, cr.ymin, 1.0) && Inside(p, 1, cr.ymax, -1.0)
  }

  /** One call of sutherland_hodgman inside the chain: an empty input fails. */
  function ClipStep(r: Result<seq<Point>>, dim: Dim, boundary: real, side: real): Result<seq<Point>> {
    match r
    case Err(e) => Err(e)
    case Ok(pts) => if pts == [] then Err(EmptyPolygon) else Ok(Clip(pts, dim, boundary, side))
  }

  /** The four clips of LibplotRenderer.polygon: x >= xmin, x <= xmax, y >= ymin, y <= ymax. */
  function ClipToRect(points: seq<Point>, cr: Rect): Result<seq<Point>> {
    var r1 := ClipStep(Ok(points), 0, cr.xmin, 1.0);
    var r2 := ClipStep(r1, 0, cr.xmax, -1.0);
    var r3 := ClipStep(r2, 1, cr.ymin, 1.0);
    ClipStep(r3, 1, cr.ymax, -1.0)
  }

  /** The only error of the chain is an empty polygon reaching a clip; when
      it succeeds, every output point lies in the rectangle. */
  lemma ClipToRectInside(points: seq<Point>, cr: Rect)
    ensures ClipToRect(points, cr).Ok? ==>
              forall k :: 0 <= k < |ClipToRect(points, cr).value| ==> InRect(ClipToRect(points, cr).value[k], cr)
    ensures ClipToRect(points, cr).Err? ==> ClipToRect(points, cr).error == EmptyPolygon
  {
    var r1 := ClipStep(Ok(points), 0, cr.xmin, 1.0);
    var r2 := ClipStep(r1, 0, cr.xmax, -1.0);
    var r3 := ClipStep(r2, 1, cr.ymin, 1.0);
    var r4 := ClipStep(r3, 1, cr.ymax, -1.0);
    if r4.Ok? {
      var p1, p2, p3 := r1.value, r2.value, r3.value;
      // each clip keeps the half-planes established before it
      ClipKeepsHalf(p1, 0, cr.xmax, -1.0, 0, cr.xmin, 1.0);
      ClipKeepsHalf(p2, 1, cr.ymin, 1.0, 0, cr.xmin, 1.0);
      ClipKeepsHalf(p2, 1, cr.ymin, 1.0, 0, cr.xmax, -1.0);
      ClipKeepsHalf(p3, 1, cr.ymax, -1.0, 0, cr.xmin, 1.0);
      ClipKeepsHalf(p3, 1, cr.ymax, -1.0, 0, cr.xmax, -1.0);
      ClipKeepsHalf(p3, 1, cr.ymax, -1.0, 1, cr.ymin, 1.0);
      forall k | 0 <= k < |r4.value| ensures InRect(r4.value[k], cr) {
        assert r4.value[k] in r4.value;
      }
    }
  }

  /** A non-empty polygon with every vertex in the rectangle passes through unchanged. */
  lemma ClipToRectAllInside(points: seq<Point>, cr: Rect)
    requires points != []
    requires forall k :: 0 <= k < |points| ==> InRect(points[k], cr)
    ensures ClipToRect(points, cr) == Ok(points)
  {
    ClipAllInside(points, 0, cr.xmin, 1.0);
    ClipAllInside(points, 0, cr.xmax, -1.0);
    ClipAllInside(points, 1, cr.ymin, 1.0);
    ClipAllInside(points, 1, cr.ymax, -1.0);
  }

  /** Clipping a clipped polygon to the same rectangle again changes nothing. */
  lemma ClipToRectIdempotent(points: seq<Point>, cr: Rect)
    requires ClipToRect(points, cr).Ok? && ClipToRect(points, cr).value != []
    ensures ClipToRect(ClipToRect(points, cr).value, cr) == ClipToRect(points, cr)
  {
    ClipToRectInside(points, cr);
    ClipToRectAllInside(ClipToRect(points, cr).value, cr);
  }
}

=== FILE: Func.dfy ===
/** The numeric helpers of the scatter-plot wrapper: the log-axis plot range,
    log-axis error bars, marker-type constants, and the array operations
    (`numpy.where`, fancy indexing, min, max, clip) they are written with. */
module Func {
  import opened Base

  // ---------------------------------------------------------------------
  // Array operations

  predicate StrictlyIncreasing(w: seq<int>) {
    forall j, k :: 0 <= j < k < |w| ==> w[j] < w[k]
  }

  /** numpy.where on a boolean array: the indices of its true entries, ascending. */
  function Where(mask: seq<bool>): (w: seq<nat>)
    ensures StrictlyIncreasing(w)
    ensures forall k :: 0 <= k < |w| ==> w[k] < |mask| && mask[w[k]]
    ensures forall i :: 0 <= i < |mask| && mask[i] ==> i in w
  {
    if mask == [] then []
    else
      var n := |mask| - 1;
      Where(mask[..n]) + (if mask[n] then [n] else [])
  }

  /** Where finds every true entry: `i` is in the result exactly when `mask[i]`. */
  lemma WhereIndexOf(mask: seq<bool>, i: nat) returns (k: nat)
    requires i < |mask| && mask[i]
    ensures k < |Where(mask)| && Where(mask)[k] == i
  {
    k :| 0 <= k < |Where(mask)| && Where(mask)[k] == i;
  }

  /** Fancy indexing `x[w]`. */
  function Pick(x: seq<real>, w: seq<nat>): (r: seq<real>)
    requires forall k :: 0 <= k < |w| ==> w[k] < |x|
    ensures |r| == |w| && forall k :: 0 <= k < |w| ==> r[k] == x[w[k]]
  {
    seq(|w|, k requires 0 <= k < |w| => x[w[k]])
  }

  /** Fancy indexing of an index array, `w[w2]`. */
  function Compose(w: seq<nat>, w2: seq<nat>): (r: seq<nat>)
    requires forall j :: 0 <= j < |w2| ==> w2[j] < |w|
    ensures |r| == |w2| && forall j :: 0 <= j < |w2| ==> r[j] == w[w2[j]]
  {
    seq(|w2|, j requires 0 <= j < |w2| => w[w2[j]])
  }

  /** Elementwise `x + e`. */
  function Add(x: seq<real>, e: seq<real>): (r: seq<real>)
    requires |e| == |x|
    ensures |r| == |x| && forall i :: 0 <= i < |x| ==> r[i] == x[i] + e[i]
  {
    seq(|x|, i requires 0 <= i < |x| => x[i] + e[i])
  }

  /** Elementwise `x - e`. */
  function Sub(x: seq<real>, e: seq<real>): (r: seq<real>)
    requires |e| == |x|
    ensures |r| == |x| && forall i :: 0 <= i < |x| ==> r[i] == x[i] - e[i]
  {
    seq(|x|, i requires 0 <= i < |x| => x[i] - e[i])
  }

  /** The boolean array `x > 0`. */
  function PositiveMask(x: seq<real>): (m: seq<bool>)
    ensures |m| == |x| && forall i :: 0 <= i < |x| ==> m[i] == (x[i] > 0.0)
  {
    seq(|x|, i requires 0 <= i < |x| => x[i] > 0.0)
  }

  /** The smallest element: a member of `s`, below every member. */
  function MinOf(s: seq<real>): (m: real)
    requires s != []
    ensures m in s && forall k :: 0 <= k < |s| ==> m <= s[k]
  {
    if |s| == 1 then s[0]
    else
      var rest := MinOf(s[1..]);
      if s[0] <= rest then s[0] else rest
  }

  /** The largest element: above every member (and a member, by `MaxOfAttained`). */
  function MaxOf(s: seq<real>): (m: real)
    requires s != []
    ensures forall k :: 0 <= k < |s| ==> s[k] <= m
  {
    if |s| == 1 then s[0]
    else
      var rest := MaxOf(s[1..]);
      if s[0] >= rest then s[0] else rest
  }

  /** The largest element is a member of `s`. */
  lemma {:induction false} MaxOfAttained(s: seq<real>)
    requires s != []
    ensures MaxOf(s) in s
  {
    if |s| > 1 {
      MaxOfAttained(s[1..]);
      assert s == [s[0]] + s[1..];
    }
  }

  lemma PickMinBelow(x: seq<real>, w: seq<nat>, k: nat)
    requires forall j :: 0 <= j < |w| ==> w[j] < |x|
    requires k < |w|
    ensures MinOf(Pick(x, w)) <= x[w[k]]
  {
  }

  lemma PickMinPositive(x: seq<real>, w: seq<nat>)
    requires w != [] && forall j :: 0 <= j < |w| ==> w[j] < |x| && x[w[j]] > 0.0
    ensures MinOf(Pick(x, w)) > 0.0
  {
    var p := Pick(x, w);
    var j :| 0 <= j < |p| && p[j] == MinOf(p);
  }

  function Min(a: real, b: real): real { if a <= b then a else b }
  function Max(a: real, b: real): real { if a >= b then a else b }

  /** numpy's clip of one value, as the numpy releases for Python 2 compute
      it: the lower bound is tested first, so a value below `lo` gives `lo`
      even when `lo > hi`. The result always lies between the two bounds. */
  function Clamp(v: real, lo: real, hi: real): (r: real)
    ensures Min(lo, hi) <= r <= Max(lo, hi)
    ensures lo <= hi ==> lo <= r <= hi
    ensures lo <= v <= hi ==> r == v
    ensures v < lo ==> r == lo
    ensures lo <= v && v > hi ==> r == hi
  {
    if v < lo then lo else if v > hi then hi else v
  }

  /** The error of point `i`, zero when there are no errors. */
  function ErrAt(err: Option<seq<real>>, i: nat): real
    requires err.Some? ==> i < |err.value|
  {
    match err
    case None => 0.0
    case Some(e) => e[i]
  }

  // ---------------------------------------------------------------------
  // get_log_plot_range

  /** An axis range, and with `get_good` also the indices of the values in it. */
  datatype LogRange = LogRange(range: seq<real>, good: Option<seq<nat>>)

  /** The boolean array `(x >= lo) & (x <= hi)`. */
  function WithinMask(x: seq<real>, lo: real, hi: real): (m: seq<bool>)
    ensures |m| == |x| && forall i :: 0 <= i < |x| ==> m[i] == (lo <= x[i] <= hi)
  {
    seq(|x|, i requires 0 <= i < |x| => lo <= x[i] && x[i] <= hi)
  }

  /** `min(x[w])` over the positive values `w`. */
  function PositiveMin(x: seq<real>): real
    requires Where(PositiveMask(x)) != []
  {
    MinOf(Pick(x, Where(PositiveMask(x))))
  }

  /** `min(x[w[w2]] - err[w[w2]])` over the positive values whose `x - err`
      stays positive, or `None` when there are none. */
  function ShrunkMin(x: seq<real>, e: seq<real>): Option<real>
    requires |e| == |x|
  {
    var w := Where(PositiveMask(x));
    var w2 := Where(PositiveMask(Pick(Sub(x, e), w)));
    if w2 == [] then None else Some(MinOf(Pick(Sub(x, e), Compose(w, w2))))
  }

  /** The smallest positive value, lowered to `x - err` at positive points
      where that stays positive. */
  function LowestPositive(x: seq<real>, err: Option<seq<real>>): real
    requires err.Some? ==> |err.value| == |x|
    requires Where(PositiveMask(x)) != []
  {
    var minval := PositiveMin(x);
    match err
    case None => minval
    case Some(e) =>
      match ShrunkMin(x, e)
      case None => minval
      case Some(m) => Min(minval, m)
  }

  /** The largest `x + err` over ALL points (not only the positive ones). */
  function Highest(x: seq<real>, err: Option<seq<real>>): real
    requires err.Some? ==> |err.value| == |x|
    requires x != []
  {
    match err
    case None => MaxOf(x)
    case Some(e) => MaxOf(Add(x, e))
  }

  /** get_log_plot_range. */
  function LogPlotRange(x: seq<real>, err: Option<seq<real>>, inputRange: Option<seq<real>>, getGood: bool)
    : (r: Result<LogRange>)
    requires err.Some? ==> |err.value| == |x|
    ensures r.Ok? ==> |r.value.range| >= 2
    ensures r.Err? ==> r.error in {ShortRange, NonPositiveRange, NoPositiveValues}
  {
    match inputRange
    case Some(rng) =>
      if |rng| < 2 then Err(ShortRange)
      else if rng[0] <= 0.0 || rng[1] <= 0.0 then Err(NonPositiveRange)
      else if getGood then Ok(LogRange(rng, Some(Where(WithinMask(x, rng[0], rng[1])))))
      else Ok(LogRange(rng, None))
    case None =>
      var w := Where(PositiveMask(x));
      if w == [] then Err(NoPositiveValues)
      else
        Ok(LogRange([0.5 * LowestPositive(x, err), 2.0 * Highest(x, err)], if getGood then Some(w) else None))
  }

  /** An explicit range must have two bounds, both positive; it is then
      returned as given, and the `get_good` mask is the ascending indices of
      the values inside it, bounds included. */
  lemma LogPlotRangeExplicit(x: seq<real>, err: Option<seq<real>>, rng: seq<real>, getGood: bool)
    requires err.Some? ==> |err.value| == |x|
    ensures |rng| < 2 ==> LogPlotRange(x, err, Some(rng), getGood) == Err(ShortRange)
    ensures |rng| >= 2 && (rng[0] <= 0.0 || rng[1] <= 0.0) ==>
              LogPlotRange(x, err, Some(rng), getGood) == Err(NonPositiveRange)
    ensures |rng| >= 2 && rng[0] > 0.0 && rng[1] > 0.0 ==>
              var r := LogPlotRange(x, err, Some(rng), getGood);
              && r.Ok? && r.value.range == rng
              && (getGood <==> r.value.good.Some?)
              && (getGood ==>
                    && StrictlyIncreasing(r.value.good.value)
                    && forall i :: 0 <= i < |x| ==> (i in r.value.good.value <==> rng[0] <= x[i] <= rng[1]))
  {
  }

  /** The minimum over the positive values is positive and at most each of them. */
  lemma MinPositiveBelow(x: seq<real>, i: nat)
    requires i < |x| && x[i] > 0.0
    ensures 0.0 < PositiveMin(x) <= x[i]
  {
    var k := WhereIndexOf(PositiveMask(x), i);
    PickMinBelow(x, Where(PositiveMask(x)), k);
    PickMinPositive(x, Where(PositiveMask(x)));
  }

  /** At a positive point where `x - err` stays positive, the shrunk minimum
      exists and is at most `x - err`. */
  lemma MinShrunkBelow(x: seq<real>, e: seq<real>, i: nat)
    requires |e| == |x| && i < |x| && x[i] > 0.0 && x[i] - e[i] > 0.0
    ensures ShrunkMin(x, e).Some? && ShrunkMin(x, e).value <= x[i] - e[i]
  {
    var w := Where(PositiveMask(x));
    var xe := Sub(x, e);
    var k := WhereIndexOf(PositiveMask(x), i);
    var j := WhereIndexOf(PositiveMask(Pick(xe, w)), k);
    PickMinBelow(xe, Compose(w, Where(PositiveMask(Pick(xe, w)))), j);
  }

  /** The shrunk minimum, when it exists, is positive. */
  lemma MinShrunkPositive(x: seq<real>, e: seq<real>)
    requires |e| == |x|
    ensures ShrunkMin(x, e).Some? ==> ShrunkMin(x, e).value > 0.0
  {
    var w := Where(PositiveMask(x));
    var xe := Sub(x, e);
    var w2 := Where(PositiveMask(Pick(xe, w)));
    if w2 != [] {
      var w3 := Compose(w, w2);
      forall j | 0 <= j < |w3| ensures xe[w3[j]] > 0.0 {
        assert PositiveMask(Pick(xe, w))[w2[j]];
      }
      PickMinPositive(xe, w3);
    }
  }

  /** The unpadded lower value is positive, at most every positive value,
      and at most `x - err` wherever that stays positive. */
  lemma LowestPositiveBounds(x: seq<real>, err: Option<seq<real>>)
    requires err.Some? ==> |err.value| == |x|
    requires Where(PositiveMask(x)) != []
    ensures 0.0 < LowestPositive(x, err)
    ensures forall i :: 0 <= i < |x| && x[i] > 0.0 ==> LowestPositive(x, err) <= x[i]
    ensures forall i :: 0 <= i < |x| && x[i] > 0.0 && x[i] - ErrAt(err, i) > 0.0 ==>
              LowestPositive(x, err) <= x[i] - ErrAt(err, i)
  {
    PositiveMinBounds(x);
    if err.Some? {
      ShrunkBounds(x, err.value);
    }
  }

  /** `min(x[w])` is positive and at most every positive value. */
  lemma PositiveMinBounds(x: seq<real>)
    requires Where(PositiveMask(x)) != []
    ensures 0.0 < PositiveMin(x)
    ensures forall i :: 0 <= i < |x| && x[i] > 0.0 ==> PositiveMin(x) <= x[i]
  {
    PickMinPositive(x, Where(PositiveMask(x)));
    forall i | 0 <= i < |x| && x[i] > 0.0 ensures PositiveMin(x) <= x[i] {
      MinPositiveBelow(x, i);
    }
  }

  /** The shrunk minimum is positive, and exists and is at most `x - err`
      at every positive point where that stays positive. */
  lemma ShrunkBounds(x: seq<real>, e: seq<real>)
    requires |e| == |x|
    ensures ShrunkMin(x, e).Some? ==> ShrunkMin(x, e).value > 0.0
    ensures forall i :: 0 <= i < |x| && x[i] > 0.0 && x[i] - e[i] > 0.0 ==>
              ShrunkMin(x, e).Some? && ShrunkMin(x, e).value <= x[i] - e[i]
  {
    MinShrunkPositive(x, e);
    forall i | 0 <= i < |x| && x[i] > 0.0 && x[i] - e[i] > 0.0
      ensures ShrunkMin(x, e).Some? && ShrunkMin(x, e).value <= x[i] - e[i]
    {
      MinShrunkBelow(x, e, i);
    }
  }

  /** `min(x[w])` is one of the positive values. */
  lemma PositiveMinAttained(x: seq<real>) returns (i: nat)
    requires Where(PositiveMask(x)) != []
    ensures i < |x| && x[i] > 0.0 && PositiveMin(x) == x[i]
  {
    var w := Where(PositiveMask(x));
    var p := Pick(x, w);
    var k :| 0 <= k < |p| && p[k] == MinOf(p);
    i := w[k];
  }

  /** The shrunk minimum, when it exists, is `x - err` at a positive point
      where that stays positive. */
  lemma ShrunkMinAttained(x: seq<real>, e: seq<real>) returns (i: nat)
    requires |e| == |x| && ShrunkMin(x, e).Some?
    ensures i < |x| && x[i] > 0.0 && x[i] - e[i] > 0.0 && ShrunkMin(x, e).value == x[i] - e[i]
  {
    var w := Where(PositiveMask(x));
    var xe := Sub(x, e);
    var w2 := Where(PositiveMask(Pick(xe, w)));
    var w3 := Compose(w, w2);
    var p := Pick(xe, w3);
    var k :| 0 <= k < |p| && p[k] == MinOf(p);
    assert PositiveMask(Pick(xe, w))[w2[k]];
    i := w3[k];
  }

  /** The unpadded lower value is attained: it is a positive value, or
      `x - err` at a positive point where that stays positive. */
  lemma LowestPositiveAttained(x: seq<real>, err: Option<seq<real>>) returns (i: nat)
    requires err.Some? ==> |err.value| == |x|
    requires Where(PositiveMask(x)) != []
    ensures i < |x| && x[i] > 0.0
    ensures LowestPositive(x, err) == x[i]
            || (x[i] - ErrAt(err, i) > 0.0 && LowestPositive(x, err) == x[i] - ErrAt(err, i))
  {
    i := PositiveMinAttained(x);
    if err.Some? && ShrunkMin(x, err.value).Some? {
      var m := ShrunkMin(x, err.value).value;
      assert LowestPositive(x, err) == Min(PositiveMin(x), m);
      if m < PositiveMin(x) {
        i := ShrunkMinAttained(x, err.value);
        assert ErrAt(err, i) == err.value[i];
      }
    }
  }

  /** The unpadded upper value is `x + err` at some point. */
  lemma HighestAttained(x: seq<real>, err: Option<seq<real>>) returns (i: nat)
    requires err.Some? ==> |err.value| == |x|
    requires x != []
    ensures i < |x| && Highest(x, err) == x[i] + ErrAt(err, i)
  {
    match err {
      case None =>
        MaxOfAttained(x);
        var k :| 0 <= k < |x| && x[k] == MaxOf(x);
        i := k;
      case Some(e) =>
        var h := Add(x, e);
        MaxOfAttained(h);
        var k :| 0 <= k < |h| && h[k] == MaxOf(h);
        i := k;
    }
  }

  lemma HighestBounds(x: seq<real>, err: Option<seq<real>>)
    requires err.Some? ==> |err.value| == |x|
    requires x != []
    ensures forall i :: 0 <= i < |x| ==> x[i] + ErrAt(err, i) <= Highest(x, err)
  {
  }

  /** With no explicit range: it fails exactly when no value is positive;
      otherwise the low bound is half the smallest positive value (or
      positive `x - err`), so it lies strictly between 0 and every positive
      value, the high bound is twice the largest `x + err`, and the
      `get_good` mask is the ascending indices of the positive values. */
  lemma LogPlotRangeComputed(x: seq<real>, err: Option<seq<real>>, getGood: bool)
    requires err.Some? ==> |err.value| == |x|
    ensures LogPlotRange(x, err, None, getGood).Err? <==> forall i :: 0 <= i < |x| ==> x[i] <= 0.0
    ensures LogPlotRange(x, err, None, getGood).Err? ==> LogPlotRange(x, err, None, getGood).error == NoPositiveValues
    ensures LogPlotRange(x, err, None, getGood).Ok? ==>
              var r := LogPlotRange(x, err, None, getGood).value;
              && |r.range| == 2
              && 0.0 < r.range[0]
              && (forall i :: 0 <= i < |x| && x[i] > 0.0 ==> r.range[0] < x[i] && r.range[0] <= 0.5 * x[i])
              && (forall i :: 0 <= i < |x| && x[i] > 0.0 && x[i] - ErrAt(err, i) > 0.0 ==>
                    r.range[0] <= 0.5 * (x[i] - ErrAt(err, i)))
              && (exists i :: 0 <= i < |x| && x[i] > 0.0 &&
                    (r.range[0] == 0.5 * x[i] || (x[i] - ErrAt(err, i) > 0.0 && r.range[0] == 0.5 * (x[i] - ErrAt(err, i)))))
              && (forall i :: 0 <= i < |x| ==> 2.0 * (x[i] + ErrAt(err, i)) <= r.range[1])
              && (exists i :: 0 <= i < |x| && r.range[1] == 2.0 * (x[i] + ErrAt(err, i)))
              && (getGood <==> r.good.Some?)
              && (getGood ==>
                    && StrictlyIncreasing(r.good.value)
                    && forall i :: 0 <= i < |x| ==> (i in r.good.value <==> x[i] > 0.0))
  {
    var w := Where(PositiveMask(x));
    if w != [] {
      LowestPositiveBounds(x, err);
      HighestBounds(x, err);
      var i := LowestPositiveAttained(x, err);
      var j := HighestAttained(x, err);
    } else if exists i :: 0 <= i < |x| && x[i] > 0.0 {
      var i :| 0 <= i < |x| && x[i] > 0.0;
      var k := WhereIndexOf(PositiveMask(x), i);
    }
  }

  /** With errors that are never negative, the computed range is non-empty:
      low < high. */
  lemma LogPlotRangeOrdered(x: seq<real>, err: Option<seq<real>>, getGood: bool)
    requires err.Some? ==> |err.value| == |x|
    requires forall i :: 0 <= i < |x| ==> ErrAt(err, i) >= 0.0
    requires LogPlotRange(x, err, None, getGood).Ok?
    ensures LogPlotRange(x, err, None, getGood).value.range[0] < LogPlotRange(x, err, None, getGood).value.range[1]
  {
    LogPlotRangeComputed(x, err, getGood);
    var i :| 0 <= i < |x| && x[i] > 0.0;
    assert ErrAt(err, i) >= 0.0;
  }

  // ---------------------------------------------------------------------
  // add_log_error_bars

  /** What gets added to a plot. */
  datatype PlotItem =
    | Points(x: seq<real>, y: seq<real>, symboltype: string)
    | Curve(x: seq<real>, y: seq<real>, linetype: Option<string>)
    | ErrorBarsX(y: seq<real>, low: seq<real>, high: seq<real>)
    | ErrorBarsY(x: seq<real>, low: seq<real>, high: seq<real>)
    | SymmetricErrorBarsX(x: seq<real>, y: seq<real>, err: seq<real>)
    | SymmetricErrorBarsY(x: seq<real>, y: seq<real>, err: seq<real>)

  /** The surviving indices `w` (where `high > 0`), and the clipped bottoms
      and the tops of their bars, for bars `center -/+ err`; `None` when no
      bar survives. */
  datatype Bars = Bars(w: seq<nat>, low: seq<real>, high: seq<real>)

  function LogBars(center: seq<real>, err: seq<real>, prange: seq<real>): Option<Bars>
    requires |err| == |center| && |prange| >= 2
  {
    var high := Add(center, err);
    var w := Where(PositiveMask(high));
    if w == [] then None
    else
      var highW := Pick(high, w);
      Some(Bars(w, ClipBars(center, err, w, 0.5 * prange[0], 2.0 * Max(MaxOf(highW), prange[1])), highW))
  }

  /** The bottoms of the bars kept at `w`: each `center - err`, clipped to [lo, hi]. */
  function ClipBars(center: seq<real>, err: seq<real>, w: seq<nat>, lo: real, hi: real): (low: seq<real>)
    requires |err| == |center| && forall k :: 0 <= k < |w| ==> w[k] < |center|
    ensures ClippedFrom(low, center, err, w, lo, hi)
  {
    seq(|w|, k requires 0 <= k < |w| => Clamp(center[w[k]] - err[w[k]], lo, hi))
  }

  /** Each `low[k]` is the `center - err` of point `w[k]`, clipped to [lo, hi]. */
  predicate ClippedFrom(low: seq<real>, center: seq<real>, err: seq<real>, w: seq<nat>, lo: real, hi: real)
    requires |err| == |center|
  {
    && |low| == |w|
    && forall k :: 0 <= k < |w| ==> w[k] < |center| && low[k] == Clamp(center[w[k]] - err[w[k]], lo, hi)
  }

  /** add_log_error_bars: bars around `x` (axis "x") or `y` (any other
      axis), only for the points where `high > 0`, with the bottoms clipped
      to [0.5 * prange[0], 2 * max(max(high), prange[1])]. Nothing is added
      when no point survives. */
  function LogErrorBars(axis: string, x: seq<real>, y: seq<real>, err: seq<real>, prange: seq<real>): Option<PlotItem>
    requires |y| == |x| && |err| == |x| && |prange| >= 2
  {
    match LogBars(if axis == "x" then x else y, err, prange)
    case None => None
    case Some(b) =>
      Some(if axis == "x" then ErrorBarsX(Pick(y, b.w), b.low, b.high) else ErrorBarsY(Pick(x, b.w), b.low, b.high))
  }

  /** No bar survives exactly when no bar reaches above zero. */
  lemma LogBarsNone(center: seq<real>, err: seq<real>, prange: seq<real>)
    requires |err| == |center| && |prange| >= 2
    ensures LogBars(center, err, prange).None? <==> forall i :: 0 <= i < |center| ==> center[i] + err[i] <= 0.0
  {
    if exists i :: 0 <= i < |center| && center[i] + err[i] > 0.0 {
      var i :| 0 <= i < |center| && center[i] + err[i] > 0.0;
      var k := WhereIndexOf(PositiveMask(Add(center, err)), i);
    }
  }

  /** The bars kept are exactly those whose top is positive, in their
      original order, with their tops unchanged. */
  lemma LogBarsKept(center: seq<real>, err: seq<real>, prange: seq<real>, b: Bars)
    requires |err| == |center| && |prange| >= 2
    requires LogBars(center, err, prange) == Some(b)
    ensures && StrictlyIncreasing(b.w)
            && (forall i :: 0 <= i < |center| ==> (i in b.w <==> center[i] + err[i] > 0.0))
            && |b.w| > 0 && |b.low| == |b.w| && |b.high| == |b.w|
            && (forall k :: 0 <= k < |b.w| ==> b.w[k] < |center|)
            && (forall k :: 0 <= k < |b.w| ==> b.high[k] == center[b.w[k]] + err[b.w[k]] > 0.0)
            && MaxOf(b.high) > 0.0
  {
    var high := Add(center, err);
    var w := Where(PositiveMask(high));
    forall i | 0 <= i < |center| && center[i] + err[i] > 0.0 ensures i in w {
      var k := WhereIndexOf(PositiveMask(high), i);
    }
    var highW := Pick(high, w);
    assert MaxOf(highW) >= highW[0] > 0.0;
  }

  /** Sizes of the kept bars, and positive tops. */
  lemma LogBarsSizes(center: seq<real>, err: seq<real>, prange: seq<real>, b: Bars)
    requires |err| == |center| && |prange| >= 2
    requires LogBars(center, err, prange) == Some(b)
    ensures && |b.w| > 0 && |b.low| == |b.w| && |b.high| == |b.w|
            && (forall k :: 0 <= k < |b.w| ==> b.w[k] < |center| && b.high[k] > 0.0)
            && MaxOf(b.high) > 0.0
  {
    var high := Add(center, err);
    var highW := Pick(high, Where(PositiveMask(high)));
    assert MaxOf(highW) >= highW[0] > 0.0;
  }

  /** Every bottom of the kept bars is its `center - err` clipped to the
      floor 0.5 * prange[0] and the ceiling 2 * max(max(high), prange[1]),
      and the ceiling is positive. */
  lemma LogBarsLow(center: seq<real>, err: seq<real>, prange: seq<real>, b: Bars)
    requires |err| == |center| && |prange| >= 2
    requires LogBars(center, err, prange) == Some(b)
    ensures |b.high| > 0 && 2.0 * Max(MaxOf(b.high), prange[1]) > 0.0
    ensures ClippedFrom(b.low, center, err, b.w, 0.5 * prange[0], 2.0 * Max(MaxOf(b.high), prange[1]))
  {
    LogBarsSizes(center, err, prange, b);
  }

  /** What clipping tells about bottoms clipped to [lo, hi]: below the larger
      bound; between the bounds when `lo <= hi`; `lo` whenever the value lies
      below `lo`, even above `hi`; unchanged inside the window; positive when
      both bounds are. */
  lemma ClippedBottoms(low: seq<real>, center: seq<real>, err: seq<real>, w: seq<nat>, lo: real, hi: real)
    requires |err| == |center| && ClippedFrom(low, center, err, w, lo, hi)
    ensures forall k :: 0 <= k < |w| ==> low[k] <= Max(lo, hi)
    ensures forall k :: 0 <= k < |w| && lo <= hi ==> lo <= low[k] <= hi
    ensures forall k :: 0 <= k < |w| && center[w[k]] - err[w[k]] < lo ==> low[k] == lo
    ensures forall k :: 0 <= k < |w| && lo <= center[w[k]] - err[w[k]] <= hi ==> low[k] == center[w[k]] - err[w[k]]
    ensures lo > 0.0 && hi > 0.0 ==> forall k :: 0 <= k < |w| ==> low[k] > 0.0
  {
  }

  /** On a range starting above zero, every kept bar lies strictly above zero. */
  lemma LogBarsPositive(center: seq<real>, err: seq<real>, prange: seq<real>, b: Bars)
    requires |err| == |center| && |prange| >= 2 && prange[0] > 0.0
    requires LogBars(center, err, prange) == Some(b)
    ensures |b.low| == |b.w| && |b.high| == |b.w|
    ensures forall k :: 0 <= k < |b.w| ==> b.low[k] > 0.0 && b.high[k] > 0.0
  {
    LogBarsSizes(center, err, prange, b);
    LogBarsLow(center, err, prange, b);
    assert 0.5 * prange[0] > 0.0;
    ClippedBottoms(b.low, center, err, b.w, 0.5 * prange[0], 2.0 * Max(MaxOf(b.high), prange[1]));
  }

  /** The point (150, 1) with error 0.5 and the reversed range [100, 1],
      with axis `'y'`: the bar is built around y = 1, so its top is 1.5, its
      floor 50 and its ceiling 2 * max(1.5, 1) = 3; its bottom 0.5 lies below
      the floor and becomes 50, above the ceiling. */
  lemma ReversedRangeFloorWins()
    ensures LogErrorBars("y", [150.0], [1.0], [0.5], [100.0, 1.0]) == Some(ErrorBarsY([150.0], [50.0], [1.5]))
  {
    ReversedRangeBars();
    assert Pick([150.0], [0]) == [150.0];
  }

  /** The bars of that point: kept at index 0, bottom 50, top 1.5. */
  lemma ReversedRangeBars()
    ensures LogBars([1.0], [0.5], [100.0, 1.0]) == Some(Bars([0], [50.0], [1.5]))
  {
    assert Add([1.0], [0.5]) == [1.5];
    assert PositiveMask([1.5]) == [true];
    assert Where([true]) == [0];
    assert Pick([1.5], [0]) == [1.5];
    assert 2.0 * Max(MaxOf([1.5]), 1.0) == 3.0;
    var low := ClipBars([1.0], [0.5], [0], 50.0, 3.0);
    assert low[0] == Clamp(0.5, 50.0, 3.0) == 50.0;
    assert low == [50.0];
  }

  // ---------------------------------------------------------------------
  // Size checks of ScatterPlot._set_pts

  /** `x` and `y` must have one size, and `xerr` and `yerr`, when given, that
      size too; `x` against `y` is checked first, then `xerr`, then `yerr`. */
  function CheckSizes(nx: nat, ny: nat, xerr: Option<seq<real>>, yerr: Option<seq<real>>): (r: Outcome)
    ensures r.Pass? <==> nx == ny && (xerr.Some? ==> |xerr.value| == nx) && (yerr.Some? ==> |yerr.value| == nx)
    ensures r.Fail? ==> r.error == SizeMismatch
  {
    if nx != ny then Fail(SizeMismatch)
    else if xerr.Some? && |xerr.value| != nx then Fail(SizeMismatch)
    else if yerr.Some? && |yerr.value| != nx then Fail(SizeMismatch)
    else Pass
  }

  // ---------------------------------------------------------------------
  // Marker types

  /** LINE_TYPES: the names that make the `type` shorthand a line type. */
  const LineTypes: seq<string> :=
    ["solid", "dotted", "dotdashed", "shortdashed", "longdashed", "dotdotdashed", "dotdotdotdashed"]

  const DefaultSymbol: string := "filled circle"

  /** _add_markers as written: `self['linetype']` and `self['symboltype']`
      raise KeyError unless both keys are present (`None` here is an absent
      key); with both present, both symbols and a curve are drawn. */
  function MarkerChoiceAsWritten(linetype: Option<string>, symboltype: Option<string>): Result<(bool, bool)> {
    if linetype.None? || symboltype.None? then Err(MissingKey)
    else Ok((symboltype.Some? || (symboltype.None? && linetype.None?), linetype.Some?))
  }

  /** The choice the source's comment documents, symbols when neither type
      is set and both markers when both are: which of (symbols, curve) are
      drawn. */
  function MarkerChoice(linetype: Option<string>, symboltype: Option<string>): (c: (bool, bool))
    ensures c.0 || c.1
    ensures c.1 <==> linetype.Some?
    ensures symboltype.Some? ==> c.0
    ensures c.0 && linetype.Some? ==> symboltype.Some?
  {
    (symboltype.Some? || (symboltype.None? && linetype.None?), linetype.Some?)
  }

  /** A plot given only the `type` shorthand of a symbol — the documented
      `plot(x, y, type='filled circle')` — fails in the code as written
      although it should draw symbols only. */
  lemma MarkerChoiceAsWrittenFails()
    ensures MarkerChoiceAsWritten(None, Some(DefaultSymbol)) == Err(MissingKey)
    ensures MarkerChoice(None, Some(DefaultSymbol)) == (true, false)
  {
  }
}

=== FILE: GraphicsState.dfy ===
/** The renderer's graphics state: a stack of attribute frames with scoped
    save and restore, and fall-back lookup through the saved frames. */
module GraphicsState {
  import opened Base

  /** The frames of a RendererState: the mutable current frame, and the
      saved frames with the most recently saved one first. */
  datatype Frames<V> = Frames(current: map<string, V>, saved: seq<map<string, V>>)

  /** The value of `name` in the first of `saved[i..]` that has it, else `notfound`. */
  function LookupSaved<V>(saved: seq<map<string, V>>, i: nat, name: string, notfound: V): V
    decreases |saved| - i
  {
    if i >= |saved| then notfound
    else if name in saved[i] then saved[i][name]
    else LookupSaved(saved, i + 1, name, notfound)
  }

  /** The value `get(name, notfound)` answers. */
  function Lookup<V>(f: Frames<V>, name: string, notfound: V): V {
    if name in f.current then f.current[name] else LookupSaved(f.saved, 0, name, notfound)
  }

  /** The frames after `set(name, value)`. */
  function Assign<V>(f: Frames<V>, name: string, value: V): Frames<V> {
    Frames(f.current[name := value], f.saved)
  }

  /** The frames after `save()`. */
  function Pushed<V>(f: Frames<V>): Frames<V> {
    Frames(map[], [f.current] + f.saved)
  }

  /** The frames after `restore()`; with nothing saved, `pop(0)` raises. */
  function Popped<V>(f: Frames<V>): Result<Frames<V>> {
    if f.saved == [] then Err(NoSavedFrame) else Ok(Frames(f.saved[0], f.saved[1..]))
  }

  lemma {:induction false} LookupSavedFirstFrom<V>(saved: seq<map<string, V>>, k: nat, i: nat, name: string, notfound: V)
    requires k <= i < |saved| && name in saved[i]
    requires forall j :: k <= j < i ==> name !in saved[j]
    ensures LookupSaved(saved, k, name, notfound) == saved[i][name]
    decreases i - k
  {
    if k < i {
      LookupSavedFirstFrom(saved, k + 1, i, name, notfound);
    }
  }

  lemma {:induction false} LookupSavedMissingFrom<V>(saved: seq<map<string, V>>, k: nat, name: string, notfound: V)
    requires forall j :: 0 <= j < |saved| ==> name !in saved[j]
    ensures LookupSaved(saved, k, name, notfound) == notfound
    decreases |saved| - k
  {
    if k < |saved| {
      LookupSavedMissingFrom(saved, k + 1, name, notfound);
    }
  }

  /** Lookup order: the current frame first, then the saved frames from
      index 0 upward, and `notfound` only when no frame has the name. */
  lemma LookupOrder<V>(f: Frames<V>, name: string, notfound: V, i: nat)
    ensures name in f.current ==> Lookup(f, name, notfound) == f.current[name]
    ensures name !in f.current && i < |f.saved| && name in f.saved[i]
            && (forall j :: 0 <= j < i ==> name !in f.saved[j])
            ==> Lookup(f, name, notfound) == f.saved[i][name]
    ensures name !in f.current && (forall j :: 0 <= j < |f.saved| ==> name !in f.saved[j])
            ==> Lookup(f, name, notfound) == notfound
  {
    if name !in f.current && i < |f.saved| && name in f.saved[i]
       && (forall j :: 0 <= j < i ==> name !in f.saved[j]) {
      LookupSavedFirstFrom(f.saved, 0, i, name, notfound);
    }
    if name !in f.current && (forall j :: 0 <= j < |f.saved| ==> name !in f.saved[j]) {
      LookupSavedMissingFrom(f.saved, 0, name, notfound);
    }
  }

  /** `set` is seen by the next `get` of that name, changes no other name,
      and leaves every saved frame as it was. */
  lemma AssignLookup<V>(f: Frames<V>, name: string, value: V, other: string, notfound: V)
    ensures Lookup(Assign(f, name, value), name, notfound) == value
    ensures other != name ==> Lookup(Assign(f, name, value), other, notfound) == Lookup(f, other, notfound)
    ensures Assign(f, name, value).saved == f.saved
  {
  }

  lemma {:induction false} LookupSavedShift<V>(c: map<string, V>, saved: seq<map<string, V>>, k: nat, name: string, notfound: V)
    ensures LookupSaved([c] + saved, k + 1, name, notfound) == LookupSaved(saved, k, name, notfound)
    decreases |saved| - k
  {
    if k < |saved| {
      assert ([c] + saved)[k + 1] == saved[k];
      LookupSavedShift(c, saved, k + 1, name, notfound);
    }
  }

  /** Right after `save`, every `get` answers as it did before. */
  lemma PushedLookup<V>(f: Frames<V>, name: string, notfound: V)
    ensures Lookup(Pushed(f), name, notfound) == Lookup(f, name, notfound)
  {
    LookupSavedShift(f.current, f.saved, 0, name, notfound);
  }

  /** `restore` after `save` gives back the earlier frames exactly, whatever
      was set in the new current frame in between (it is dropped, not merged). */
  lemma PoppedAfterPushed<V>(f: Frames<V>, g: Frames<V>)
    requires g.saved == Pushed(f).saved
    ensures Popped(g) == Ok(f)
  {
  }

  /** `restore` with no saved frame fails and changes nothing. */
  lemma PoppedEmpty<V>(f: Frames<V>)
    requires f.saved == []
    ensures Popped(f).Err? && Popped(f).error == NoSavedFrame
  {
  }

  // ---------------------------------------------------------------------
  // Sequences of state operations

  datatype Op<V> = SetOp(name: string, value: V) | SaveOp | RestoreOp

  function Step<V>(f: Frames<V>, op: Op<V>): Result<Frames<V>> {
    match op
    case SetOp(name, value) => Ok(Assign(f, name, value))
    case SaveOp => Ok(Pushed(f))
    case RestoreOp => Popped(f)
  }

  /** The frames after running `ops` in order from `f`; the first failing restore stops the run. */
  function Run<V>(f: Frames<V>, ops: seq<Op<V>>): Result<Frames<V>> {
    if ops == [] then Ok(f)
    else
      match Run(f, ops[..|ops| - 1])
      case Err(e) => Err(e)
      case Ok(g) => Step(g, ops[|ops| - 1])
  }

  /** Saves minus restores. */
  function Depth<V>(ops: seq<Op<V>>): int {
    if ops == [] then 0
    else
      Depth(ops[..|ops| - 1])
      + (match ops[|ops| - 1] case SaveOp => 1 case RestoreOp => -1 case SetOp(_, _) => 0)
  }

  /** Every restore has a matching earlier save, and every save is restored. */
  predicate Balanced<V>(ops: seq<Op<V>>) {
    Depth(ops) == 0 && forall n :: 0 <= n <= |ops| ==> Depth(ops[..n]) >= 0
  }

  /** A run that never restores more than it saved cannot fail, and leaves
      the frames saved before it in place under the ones it pushed. */
  lemma {:induction false} RunKeepsSaved<V>(f: Frames<V>, ops: seq<Op<V>>)
    requires forall n :: 0 <= n <= |ops| ==> Depth(ops[..n]) >= 0
    ensures Run(f, ops).Ok?
    ensures Depth(ops) >= 0
    ensures |Run(f, ops).value.saved| == |f.saved| + Depth(ops)
    ensures Run(f, ops).value.saved[Depth(ops)..] == f.saved
  {
    assert ops[..|ops|] == ops;
    if ops != [] {
      var init := ops[..|ops| - 1];
      forall n | 0 <= n <= |init| ensures Depth(init[..n]) >= 0 {
        assert init[..n] == ops[..n];
      }
      RunKeepsSaved(f, init);
      var g := Run(f, init).value;
      var d := Depth(init);
      match ops[|ops| - 1]
      case SetOp(name, value) =>
      case SaveOp =>
        assert ([g.current] + g.saved)[d + 1..] == g.saved[d..];
      case RestoreOp =>
        assert d >= 1;
        assert g.saved[1..][d - 1..] == g.saved[d..];
    }
  }

  lemma {:induction false} RunCons<V>(f: Frames<V>, op: Op<V>, rest: seq<Op<V>>)
    ensures Run(f, [op] + rest) ==
            match Step(f, op) case Err(e) => Err(e) case Ok(g) => Run(g, rest)
  {
    if rest == [] {
      assert ([op] + rest)[..0] == [];
    } else {
      var init := rest[..|rest| - 1];
      assert ([op] + rest)[..|[op] + rest| - 1] == [op] + init;
      RunCons(f, op, init);
    }
  }

  /** A scope `save; ...; restore` around a balanced body leaves the frames
      exactly as they were, so every `get` answers as before it. */
  lemma ScopeRestores<V>(f: Frames<V>, body: seq<Op<V>>)
    requires Balanced(body)
    ensures Run(f, [SaveOp] + body + [RestoreOp]) == Ok(f)
  {
    var ops := [SaveOp] + body + [RestoreOp];
    assert ops[..|ops| - 1] == [SaveOp] + body;
    RunCons(f, SaveOp, body);
    RunKeepsSaved(Pushed(f), body);
  }

  /** The state object of a renderer session. */
  class RendererState<V> {
    var current: map<string, V>
    var saved: seq<map<string, V>>

    function State(): Frames<V>
      reads this
    {
      Frames(current, saved)
    }

    constructor ()
      ensures State() == Frames(map[], [])
    {
      current := map[];
      saved := [];
    }

    method Set(name: string, value: V)
      modifies this
      ensures State() == Assign(old(State()), name, value)
    {
      current := current[name := value];
    }

    method Get(name: string, notfound: V) returns (r: V)
      ensures r == Lookup(State(), name, notfound)
    {
      if name in current {
        return current[name];
      }
      var i := 0;
      while i < |saved|
        invariant 0 <= i <= |saved|
        invariant LookupSaved(saved, i, name, notfound) == LookupSaved(saved, 0, name, notfound)
      {
        var d := saved[i];
        if name in d {
          return d[name];
        }
        i := i + 1;
      }
      return notfound;
    }

    method Save()
      modifies this
      ensures State() == Pushed(old(State()))
    {
      saved := [current] + saved;
      current := map[];
    }

    method Restore() returns (r: Outcome)
      modifies this
      ensures old(saved) == [] ==> r == Fail(NoSavedFrame) && State() == old(State())
      ensures old(saved) != [] ==> r == Pass && Popped(old(State())) == Ok(State())
    {
      if saved == [] {
        return Fail(NoSavedFrame);
      }
      current := saved[0];
      saved := saved[1..];
      return Pass;
    }
  }
}

=== FILE: Renderer.dfy ===
/** The libplot renderer's own logic: colour channels, line-type aliases,
    and the clipped polygon path it hands to the plotter. */
module Renderer {
  import opened Base
  import opened Clipping
  import opened GraphicsState

  /** The attribute values the renderer keeps in its state that this model reads. */
  datatype Value = Nothing | Text(s: string) | Number(r: real) | Hex(rgb: int) | Box(rect: Rect)

  // ---------------------------------------------------------------------
  // _hexcolor

  /** The 8-bit channels of a colour integer: bits 16-23, 8-15 and 0-7.
      Integer division by a positive power of two floors, as `>>` does, and
      `% 256` keeps the low byte, as `& 0xff` does, for negative numbers too. */
  function Channels(hextriplet: int): (c: (int, int, int))
    ensures 0 <= c.0 < 256 && 0 <= c.1 < 256 && 0 <= c.2 < 256
  {
    ((hextriplet / 0x10000) % 0x100, (hextriplet / 0x100) % 0x100, hextriplet % 0x100)
  }

  /** The colour integer with the given channels. */
  function Pack(r: int, g: int, b: int): int {
    r * 0x10000 + g * 0x100 + b
  }

  /** A 24-bit colour is recovered from its channels. */
  lemma PackChannels(hextriplet: int)
    requires 0 <= hextriplet < 0x1000000
    ensures Pack(Channels(hextriplet).0, Channels(hextriplet).1, Channels(hextriplet).2) == hextriplet
  {
    var c := Channels(hextriplet);
    assert hextriplet / 0x10000 < 0x100;
    assert c.0 == hextriplet / 0x10000;
    assert hextriplet == (hextriplet / 0x100) * 0x100 + c.2;
    assert hextriplet / 0x100 == (hextriplet / 0x10000) * 0x100 + c.1;
  }

  /** Channels in 0..255 are recovered from the colour they pack into. */
  lemma ChannelsPack(r: int, g: int, b: int)
    requires 0 <= r < 0x100 && 0 <= g < 0x100 && 0 <= b < 0x100
    ensures Channels(Pack(r, g, b)) == (r, g, b)
  {
    var h := Pack(r, g, b);
    assert h / 0x100 == r * 0x100 + g;
    assert h / 0x10000 == r;
  }

  /** _hexcolor: each channel scaled by `scale / 255`, so a non-negative
      scale puts every component in [0, scale]. */
  function HexColor(hextriplet: int, scale: real): (rgb: (real, real, real))
    ensures scale >= 0.0 ==> 0.0 <= rgb.0 <= scale && 0.0 <= rgb.1 <= scale && 0.0 <= rgb.2 <= scale
  {
    var s := scale / 255.0;
    var c := Channels(hextriplet);
    ScaleChannel(s, scale, c.0);
    ScaleChannel(s, scale, c.1);
    ScaleChannel(s, scale, c.2);
    (s * c.0 as real, s * c.1 as real, s * c.2 as real)
  }

  lemma ScaleChannel(s: real, scale: real, c: int)
    requires s == scale / 255.0 && 0 <= c < 256
    ensures scale >= 0.0 ==> 0.0 <= s * (c as real) <= scale
  {
    if scale >= 0.0 {
      assert s * 255.0 == scale;
      MulNonneg(s, c as real);
      MulNonneg(s, 255.0 - c as real);
    }
  }

  // ---------------------------------------------------------------------
  // _pl_line_type and _set_line_type

  /** The line-type name passed to the plotter: the aliases "dot", "dash" and
      "dashed" are translated, every other name passes through. */
  function PlLineType(t: string): string {
    if t == "dot" then "dotted"
    else if t == "dash" || t == "dashed" then "shortdashed"
    else t
  }

  /** Translated names are never aliases themselves, so translating twice
      is translating once; exactly the three aliases change. */
  lemma PlLineTypeIdempotent(t: string)
    ensures PlLineType(PlLineType(t)) == PlLineType(t)
    ensures PlLineType(t) != t <==> t in {"dot", "dash", "dashed"}
  {
  }

  // ---------------------------------------------------------------------
  // LibplotRenderer.polygon

  /** The plotter calls a polygon is drawn with. */
  datatype Draw = MoveTo(p: Point) | LineTo(p: Point)

  /** move to the first point, then a line to each following one, in order. */
  function Path(pts: seq<Point>): (d: seq<Draw>)
    requires pts != []
    ensures |d| == |pts| && d[0] == MoveTo(pts[0])
    ensures forall k :: 0 < k < |pts| ==> d[k] == LineTo(pts[k])
  {
    [MoveTo(pts[0])] + seq(|pts| - 1, k requires 0 <= k < |pts| - 1 => LineTo(pts[k + 1]))
  }

  /** The polygon as drawn, given the "cliprect" attribute: clipped by the
      four-clip chain when it is a rectangle, unchanged when it is unset. An
      empty result has no `pts[0]` and fails. */
  function PolygonDraw(points: seq<Point>, cliprect: Value): Result<seq<Draw>> {
    var clipped :=
      match cliprect
      case Nothing => Ok(points)
      case Box(cr) => ClipToRect(points, cr)
      case _ => Err(BadClipRect);
    match clipped
    case Err(e) => Err(e)
    case Ok(pts) => if pts == [] then Err(EmptyPolygon) else Ok(Path(pts))
  }

  /** What polygon draws: with no clip rectangle, the given points in order;
      with one, a path that stays inside it; an empty polygon draws nothing
      and fails. */
  lemma PolygonDrawSpec(points: seq<Point>, cliprect: Value)
    ensures cliprect == Nothing && points != [] ==> PolygonDraw(points, cliprect) == Ok(Path(points))
    ensures points == [] ==> PolygonDraw(points, cliprect).Err?
    ensures cliprect.Box? && PolygonDraw(points, cliprect).Ok? ==>
              forall k :: 0 <= k < |PolygonDraw(points, cliprect).value| ==>
                InRect(PolygonDraw(points, cliprect).value[k].p, cliprect.rect)
    ensures cliprect.Box? && points != [] && (forall k :: 0 <= k < |points| ==> InRect(points[k], cliprect.rect))
            ==> PolygonDraw(points, cliprect) == Ok(Path(points))
  {
    if cliprect.Box? {
      ClipToRectInside(points, cliprect.rect);
      if points != [] && (forall k :: 0 <= k < |points| ==> InRect(points[k], cliprect.rect)) {
        ClipToRectAllInside(points, cliprect.rect);
      }
    }
  }

  /** The renderer: the state half of its attribute commands, and polygon. */
  class LibplotRenderer {
    var state: RendererState<Value>

    /** open(): a fresh, empty state. */
    constructor ()
      ensures fresh(state) && state.State() == Frames(map[], [])
    {
      state := new RendererState();
    }

    /** set: records the attribute (the plotter-side style call is not modelled). */
    method Set(key: string, value: Value)
      modifies state
      ensures state.State() == Assign(old(state.State()), key, value)
    {
      state.Set(key, value);
    }

    /** get: the attribute as the state's lookup answers it. */
    method Get(key: string, notfound: Value) returns (r: Value)
      ensures r == Lookup(state.State(), key, notfound)
    {
      r := state.Get(key, notfound);
    }

    method SaveState()
      modifies state
      ensures state.State() == Pushed(old(state.State()))
    {
      state.Save();
    }

    method RestoreState() returns (r: Outcome)
      modifies state
      ensures old(state.saved) == [] ==> r == Fail(NoSavedFrame) && state.State() == old(state.State())
      ensures old(state.saved) != [] ==> r == Pass && Popped(old(state.State())) == Ok(state.State())
    {
      r := state.Restore();
    }

    /** polygon: reads "cliprect" through the state and draws the clipped path. */
    method Polygon(points: seq<Point>) returns (r: Result<seq<Draw>>)
      ensures r == PolygonDraw(points, Lookup(state.State(), "cliprect", Nothing))
    {
      var pts := points;
      var cr := state.Get("cliprect", Nothing);
      match cr {
        case Nothing =>
        case Box(rect) =>
          var r1 := SutherlandHodgman(pts, 0, rect.xmin, 1.0);
          if r1.Err? { return Err(r1.error); }
          var r2 := SutherlandHodgman(r1.value, 0, rect.xmax, -1.0);
          if r2.Err? { return Err(r2.error); }
          var r3 := SutherlandHodgman(r2.value, 1, rect.ymin, 1.0);
          if r3.Err? { return Err(r3.error); }
          var r4 := SutherlandHodgman(r3.value, 1, rect.ymax, -1.0);
          if r4.Err? { return Err(r4.error); }
          pts := r4.value;
        case _ =>
          return Err(BadClipRect);
      }
      if pts == [] {
        return Err(EmptyPolygon);
      }
      return Ok(Path(pts));
    }
  }
}

=== FILE: Runs.dfy ===
/** Splitting a visibility mask into runs of consecutive indices, as
    `itertools.groupby(enumerate(indices), key i - x)` does in the scatter
    plot's curve drawing. */
module Runs {

  /** The groups concatenated in order. */
  function Flatten<T>(groups: seq<seq<T>>): seq<T> {
    if groups == [] then [] else groups[0] + Flatten(groups[1..])
  }

  function Last(s: seq<int>): int
    requires s != []
  {
    s[|s| - 1]
  }

  /** Every element of every group is an element of the concatenation. */
  lemma {:induction false} InFlatten<T>(groups: seq<seq<T>>, k: nat, j: nat)
    requires k < |groups| && j < |groups[k]|
    ensures groups[k][j] in Flatten(groups)
  {
    if k > 0 {
      InFlatten(groups[1..], k - 1, j);
    }
  }

  /** groupby on the key `i - w[i]` (position minus value): an element joins
      the group of the element before it exactly when both have the same key.
      Concatenating the groups gives `w` back, no group is empty, and only
      the empty mask has no groups. */
  function GroupByOffset(w: seq<nat>): (groups: seq<seq<nat>>)
    ensures Flatten(groups) == w
    ensures forall k :: 0 <= k < |groups| ==> groups[k] != []
    ensures groups == [] <==> w == []
  {
    if w == [] then []
    else
      var rest := GroupByOffset(w[1..]);
      if |w| > 1 && 0 - w[0] as int == 1 - w[1] as int then
        assert Flatten(rest) != [];
        var g := [[w[0]] + rest[0]] + rest[1..];
        assert g[1..] == rest[1..];
        g
      else
        var g := [[w[0]]] + rest;
        assert g[1..] == rest;
        g
  }

  /** The groups of `w` are those of `w[1..]` with `w[0]` joined to the
      front of the first one, or put in a group of its own. */
  lemma GroupsShape(w: seq<nat>)
    requires w != []
    ensures var rest := GroupByOffset(w[1..]);
            |w| > 1 ==> rest != [] && rest[0][0] == w[1]
    ensures var rest := GroupByOffset(w[1..]);
            var groups := GroupByOffset(w);
            if |w| > 1 && w[1] == w[0] + 1
            then |groups| == |rest| && groups[0] == [w[0]] + rest[0]
                 && forall k :: 0 < k < |groups| ==> groups[k] == rest[k]
            else |groups| == |rest| + 1 && groups[0] == [w[0]]
                 && forall k :: 0 < k < |groups| ==> groups[k] == rest[k - 1]
  {
    var rest := GroupByOffset(w[1..]);
    if |w| > 1 {
      assert Flatten(rest) != [];
      assert Flatten(rest) == rest[0] + Flatten(rest[1..]);
    }
  }

  /** Each group holds consecutive integers. */
  lemma {:induction false} GroupsConsecutive(w: seq<nat>)
    ensures var groups := GroupByOffset(w);
            forall k, j :: 0 <= k < |groups| && 0 <= j < |groups[k]| - 1 ==> groups[k][j + 1] == groups[k][j] + 1
  {
    if w != [] {
      GroupsConsecutive(w[1..]);
      GroupsShape(w);
      var rest := GroupByOffset(w[1..]);
      var groups := GroupByOffset(w);
      forall k, j | 0 <= k < |groups| && 0 <= j < |groups[k]| - 1
        ensures groups[k][j + 1] == groups[k][j] + 1
      {
        if k == 0 && j > 0 {
          assert groups[0][j] == rest[0][j - 1] && groups[0][j + 1] == rest[0][j];
        }
      }
    }
  }

  /** A new group starts exactly where `w` does not step up by one: between
      two neighbouring groups the last element of the first plus one is not
      the first element of the second. */
  lemma {:induction false} GroupsSplitAtGaps(w: seq<nat>)
    ensures var groups := GroupByOffset(w);
            forall k :: 0 < k < |groups| ==> groups[k][0] != Last(groups[k - 1]) + 1
  {
    if w != [] {
      GroupsSplitAtGaps(w[1..]);
      GroupsShape(w);
      var rest := GroupByOffset(w[1..]);
      var groups := GroupByOffset(w);
      forall k | 0 < k < |groups| ensures groups[k][0] != Last(groups[k - 1]) + 1 {
        if k == 1 && |w| > 1 && w[1] == w[0] + 1 {
          assert Last(groups[0]) == Last(rest[0]);
        }
      }
    }
  }

  /** In a strictly increasing mask the gap between neighbouring runs is
      real: each run ends more than one below where the next begins. */
  lemma {:induction false} RunsOfIncreasing(w: seq<nat>)
    requires forall j :: 0 <= j < |w| - 1 ==> w[j] < w[j + 1]
    ensures var groups := GroupByOffset(w);
            forall k :: 0 < k < |groups| ==> Last(groups[k - 1]) + 1 < groups[k][0]
  {
    if w != [] {
      RunsOfIncreasing(w[1..]);
      GroupsSplitAtGaps(w);
      GroupsShape(w);
      var rest := GroupByOffset(w[1..]);
      var groups := GroupByOffset(w);
      forall k | 0 < k < |groups| ensures Last(groups[k - 1]) + 1 < groups[k][0] {
        if k == 1 && |w| > 1 && w[1] == w[0] + 1 {
          assert Last(groups[0]) == Last(rest[0]);
        }
      }
    }
  }

  /** [0, 1, 2, 5, 6, 9] runs as [0, 1, 2], [5, 6], [9]. */
  lemma GroupByOffsetExample()
    ensures GroupByOffset([0, 1, 2, 5, 6, 9]) == [[0, 1, 2], [5, 6], [9]]
  {
    assert [9][1..] == [];
    assert GroupByOffset([9]) == [[9]];
    assert [6, 9][1..] == [9];
    assert GroupByOffset([6, 9]) == [[6], [9]];
    Merged([5, 6, 9], [[6], [9]], [[5, 6], [9]]);
    assert [2, 5, 6, 9][1..] == [5, 6, 9];
    assert GroupByOffset([2, 5, 6, 9]) == [[2], [5, 6], [9]];
    Merged([1, 2, 5, 6, 9], [[2], [5, 6], [9]], [[1, 2], [5, 6], [9]]);
    Merged([0, 1, 2, 5, 6, 9], [[1, 2], [5, 6], [9]], [[0, 1, 2], [5, 6], [9]]);
  }

  /** One merge step of the example, spelled out. */
  lemma Merged(w: seq<nat>, rest: seq<seq<nat>>, groups: seq<seq<nat>>)
    requires |w| > 1 && w[1] == w[0] + 1 && GroupByOffset(w[1..]) == rest
    requires |groups| == |rest| && groups[0] == [w[0]] + rest[0]
    requires forall k :: 0 < k < |groups| ==> groups[k] == rest[k]
    ensures GroupByOffset(w) == groups
  {
    GroupsShape(w);
  }
}

=== FILE: Scatter.dfy ===
/** ScatterPlot: the keyword options a scatter plot is built from, the
    points left visible on log axes, and the symbols, curves and error bars
    it adds to its plot object. */
module Scatter {
  import opened Base
  import opened Func
  import opened Runs
  import Renderer

  /** The keyword options a ScatterPlot reads; `None` is an absent key. */
  datatype Options = Options(
    xerr: Option<seq<real>>,
    yerr: Option<seq<real>>,
    xlog: Option<bool>,
    ylog: Option<bool>,
    xrange: Option<seq<real>>,
    yrange: Option<seq<real>>,
    typ: Option<string>,
    linetype: Option<string>,
    symboltype: Option<string>)

  /** What _set_range_and_subpts leaves behind: the visible indices (`None`
      when neither axis is logarithmic) and the two plot ranges. */
  datatype Visible = Visible(indices: Option<seq<nat>>, xrng: Option<seq<real>>, yrng: Option<seq<real>>)

  predicate ErrSized(err: Option<seq<real>>, n: nat) {
    err.Some? ==> |err.value| == n
  }

  predicate IndicesIn(w: seq<nat>, n: nat) {
    forall k :: 0 <= k < |w| ==> w[k] < n
  }

  /** What the drawing steps rely on: the sizes agree, the visible indices
      index the points, and a logarithmic axis has a range with two bounds. */
  predicate Consistent(x: seq<real>, y: seq<real>, xerr: Option<seq<real>>, yerr: Option<seq<real>>,
                       v: Visible, xlog: bool, ylog: bool) {
    && |y| == |x| && ErrSized(xerr, |x|) && ErrSized(yerr, |x|)
    && (v.indices.Some? ==> IndicesIn(v.indices.value, |x|))
    && (xlog ==> v.xrng.Some? && |v.xrng.value| >= 2)
    && (ylog ==> v.yrng.Some? && |v.yrng.value| >= 2)
  }

  // ---------------------------------------------------------------------
  // _set_range_and_subpts

  /** The mask `x > lo`. */
  function AboveMask(x: seq<real>, lo: real): (m: seq<bool>)
    ensures |m| == |x| && forall i :: 0 <= i < |x| ==> m[i] == (x[i] > lo)
  {
    seq(|x|, i requires 0 <= i < |x| => x[i] > lo)
  }

  /** The mask `(x > xlo) & (y > ylo)`. */
  function BothAboveMask(x: seq<real>, y: seq<real>, xlo: real, ylo: real): (m: seq<bool>)
    requires |y| == |x|
    ensures |m| == |x| && forall i :: 0 <= i < |x| ==> m[i] == (x[i] > xlo && y[i] > ylo)
  {
    seq(|x|, i requires 0 <= i < |x| => x[i] > xlo && y[i] > ylo)
  }

  function Masked(w: seq<nat>, xrng: Option<seq<real>>, yrng: Option<seq<real>>): Result<Visible> {
    if w == [] then Err(NoPointsInRange) else Ok(Visible(Some(w), xrng, yrng))
  }

  /** _set_range_and_subpts: on each logarithmic axis the range comes from
      get_log_plot_range and only the points strictly above its low bound
      stay visible; with no logarithmic axis every point is drawn and the
      ranges are the options as given. */
  function RangeAndMask(x: seq<real>, y: seq<real>, xerr: Option<seq<real>>, yerr: Option<seq<real>>,
                        xlog: bool, ylog: bool, xrange: Option<seq<real>>, yrange: Option<seq<real>>)
    : (r: Result<Visible>)
    requires |y| == |x| && ErrSized(xerr, |x|) && ErrSized(yerr, |x|)
    ensures r.Ok? ==> Consistent(x, y, xerr, yerr, r.value, xlog, ylog)
    ensures r.Err? ==> r.error in {ShortRange, NonPositiveRange, NoPositiveValues, NoPointsInRange}
  {
    if xlog && ylog then
      match LogPlotRange(x, xerr, xrange, false)
      case Err(e) => Err(e)
      case Ok(xr) =>
        match LogPlotRange(y, yerr, yrange, false)
        case Err(e) => Err(e)
        case Ok(yr) => Masked(Where(BothAboveMask(x, y, xr.range[0], yr.range[0])), Some(xr.range), Some(yr.range))
    else if xlog then
      match LogPlotRange(x, xerr, xrange, false)
      case Err(e) => Err(e)
      case Ok(xr) => Masked(Where(AboveMask(x, xr.range[0])), Some(xr.range), yrange)
    else if ylog then
      match LogPlotRange(y, yerr, yrange, false)
      case Err(e) => Err(e)
      case Ok(yr) => Masked(Where(AboveMask(y, yr.range[0])), xrange, Some(yr.range))
    else
      Ok(Visible(None, xrange, yrange))
  }

  /** Every range get_log_plot_range accepts or computes starts above zero:
      an explicit one is checked, a computed one is half the lowest
      positive value. */
  lemma LogRangeLowPositive(x: seq<real>, err: Option<seq<real>>, inputRange: Option<seq<real>>)
    requires ErrSized(err, |x|)
    requires LogPlotRange(x, err, inputRange, false).Ok?
    ensures LogPlotRange(x, err, inputRange, false).value.range[0] > 0.0
  {
    match inputRange
    case Some(rng) =>
    case None => LogPlotRangeComputed(x, err, false);
  }

  /** A non-empty mask gives visible indices that are, in ascending order,
      exactly the indices where the mask holds; an empty one fails. */
  lemma MaskedIndices(m: seq<bool>, xrng: Option<seq<real>>, yrng: Option<seq<real>>)
    ensures var r := Masked(Where(m), xrng, yrng);
            && (r.Err? <==> forall i :: 0 <= i < |m| ==> !m[i])
            && (r.Err? ==> r.error == NoPointsInRange)
            && (r.Ok? ==>
                  && r.value.indices.Some? && r.value.indices.value != []
                  && StrictlyIncreasing(r.value.indices.value)
                  && r.value.xrng == xrng && r.value.yrng == yrng
                  && forall i :: 0 <= i < |m| ==> (i in r.value.indices.value <==> m[i]))
  {
    if exists i :: 0 <= i < |m| && m[i] {
      var i :| 0 <= i < |m| && m[i];
      var k := WhereIndexOf(m, i);
    }
  }

  /** The visible indices are, in ascending order, exactly the points above
      the low bound of every logarithmic axis, and there is at least one;
      with no logarithmic axis every point is visible. */
  lemma RangeAndMaskVisible(x: seq<real>, y: seq<real>, xerr: Option<seq<real>>, yerr: Option<seq<real>>,
                            xlog: bool, ylog: bool, xrange: Option<seq<real>>, yrange: Option<seq<real>>)
    requires |y| == |x| && ErrSized(xerr, |x|) && ErrSized(yerr, |x|)
    ensures !xlog && !ylog ==> RangeAndMask(x, y, xerr, yerr, xlog, ylog, xrange, yrange) == Ok(Visible(None, xrange, yrange))
    ensures var r := RangeAndMask(x, y, xerr, yerr, xlog, ylog, xrange, yrange);
            (xlog || ylog) && r.Ok? ==>
              && r.value.indices.Some? && r.value.indices.value != []
              && StrictlyIncreasing(r.value.indices.value)
              && (xlog ==> r.value.xrng == Some(LogPlotRange(x, xerr, xrange, false).value.range))
              && (ylog ==> r.value.yrng == Some(LogPlotRange(y, yerr, yrange, false).value.range))
              && (!xlog ==> r.value.xrng == xrange)
              && (!ylog ==> r.value.yrng == yrange)
              && forall i :: 0 <= i < |x| ==>
                   (i in r.value.indices.value <==>
                      (xlog ==> x[i] > r.value.xrng.value[0]) && (ylog ==> y[i] > r.value.yrng.value[0]))
  {
    var r := RangeAndMask(x, y, xerr, yerr, xlog, ylog, xrange, yrange);
    var rx := LogPlotRange(x, xerr, xrange, false);
    var ry := LogPlotRange(y, yerr, yrange, false);
    if xlog && ylog && rx.Ok? && ry.Ok? {
      var m := BothAboveMask(x, y, rx.value.range[0], ry.value.range[0]);
      assert r == Masked(Where(m), Some(rx.value.range), Some(ry.value.range));
      MaskedIndices(m, Some(rx.value.range), Some(ry.value.range));
    } else if xlog && !ylog && rx.Ok? {
      var m := AboveMask(x, rx.value.range[0]);
      assert r == Masked(Where(m), Some(rx.value.range), yrange);
      MaskedIndices(m, Some(rx.value.range), yrange);
    } else if !xlog && ylog && ry.Ok? {
      var m := AboveMask(y, ry.value.range[0]);
      assert r == Masked(Where(m), xrange, Some(ry.value.range));
      MaskedIndices(m, xrange, Some(ry.value.range));
    }
  }

  /** When it fails: an error of get_log_plot_range on the x axis, tried
      first, or then on the y axis, is passed on unchanged; with usable
      ranges on every logarithmic axis it fails exactly when no point lies
      above the low bound of each of them. */
  lemma RangeAndMaskErrors(x: seq<real>, y: seq<real>, xerr: Option<seq<real>>, yerr: Option<seq<real>>,
                           xlog: bool, ylog: bool, xrange: Option<seq<real>>, yrange: Option<seq<real>>)
    requires |y| == |x| && ErrSized(xerr, |x|) && ErrSized(yerr, |x|)
    ensures var r := RangeAndMask(x, y, xerr, yerr, xlog, ylog, xrange, yrange);
            var rx := LogPlotRange(x, xerr, xrange, false);
            var ry := LogPlotRange(y, yerr, yrange, false);
            && (xlog && rx.Err? ==> r == Err(rx.error))
            && (ylog && ry.Err? && !(xlog && rx.Err?) ==> r == Err(ry.error))
            && ((xlog || ylog) && (xlog ==> rx.Ok?) && (ylog ==> ry.Ok?) ==>
                  (r.Err? <==> forall i :: 0 <= i < |x| ==>
                                 !((xlog ==> x[i] > rx.value.range[0]) && (ylog ==> y[i] > ry.value.range[0]))))
  {
    var r := RangeAndMask(x, y, xerr, yerr, xlog, ylog, xrange, yrange);
    var rx := LogPlotRange(x, xerr, xrange, false);
    var ry := LogPlotRange(y, yerr, yrange, false);
    if xlog && ylog && rx.Ok? && ry.Ok? {
      var m := BothAboveMask(x, y, rx.value.range[0], ry.value.range[0]);
      assert r == Masked(Where(m), Some(rx.value.range), Some(ry.value.range));
      MaskedIndices(m, Some(rx.value.range), Some(ry.value.range));
    } else if xlog && !ylog && rx.Ok? {
      var m := AboveMask(x, rx.value.range[0]);
      assert r == Masked(Where(m), Some(rx.value.range), yrange);
      MaskedIndices(m, Some(rx.value.range), yrange);
    } else if !xlog && ylog && ry.Ok? {
      var m := AboveMask(y, ry.value.range[0]);
      assert r == Masked(Where(m), xrange, Some(ry.value.range));
      MaskedIndices(m, xrange, Some(ry.value.range));
    }
  }

  /** On a logarithmic axis no visible point is zero or below. */
  lemma RangeAndMaskPositive(x: seq<real>, y: seq<real>, xerr: Option<seq<real>>, yerr: Option<seq<real>>,
                             xlog: bool, ylog: bool, xrange: Option<seq<real>>, yrange: Option<seq<real>>)
    requires |y| == |x| && ErrSized(xerr, |x|) && ErrSized(yerr, |x|)
    requires RangeAndMask(x, y, xerr, yerr, xlog, ylog, xrange, yrange).Ok?
    ensures var v := RangeAndMask(x, y, xerr, yerr, xlog, ylog, xrange, yrange).value;
            && (xlog ==> v.indices.Some? && forall i :: 0 <= i < |x| && i in v.indices.value ==> x[i] > 0.0)
            && (ylog ==> v.indices.Some? && forall i :: 0 <= i < |x| && i in v.indices.value ==> y[i] > 0.0)
  {
    RangeAndMaskVisible(x, y, xerr, yerr, xlog, ylog, xrange, yrange);
    if xlog {
      LogRangeLowPositive(x, xerr, xrange);
    }
    if ylog {
      LogRangeLowPositive(y, yerr, yrange);
    }
  }

  /** Points exactly at the low bound of a log range are not drawn: with the
      explicit x range [1, 10], of the points 1, 2, 3 only 2 and 3 stay. */
  lemma BoundaryPointHidden()
    ensures RangeAndMask([1.0, 2.0, 3.0], [5.0, 5.0, 5.0], None, None, true, false, Some([1.0, 10.0]), None)
            == Ok(Visible(Some([1, 2]), Some([1.0, 10.0]), None))
  {
    var x := [1.0, 2.0, 3.0];
    assert LogPlotRange(x, None, Some([1.0, 10.0]), false) == Ok(LogRange([1.0, 10.0], None));
    var m := AboveMask(x, 1.0);
    assert m == [false, true, true];
    WhereSmall();
    assert Where(m) == [1, 2];
    assert RangeAndMask(x, [5.0, 5.0, 5.0], None, None, true, false, Some([1.0, 10.0]), None)
           == Masked(Where(m), Some([1.0, 10.0]), None);
  }

  lemma WhereSmall()
    ensures Where([false, true, true]) == [1, 2]
  {
    assert [false][..0] == [];
    assert [false, true][..1] == [false];
    assert [false, true, true][..2] == [false, true];
    assert Where([false]) == [];
    assert Where([false, true]) == [1];
  }

  // ---------------------------------------------------------------------
  // _set_markers_from_shorthand and the marker choice

  /** The (linetype, symboltype) after _set_markers_from_shorthand. */
  function Shorthand(typ: Option<string>, linetype: Option<string>, symboltype: Option<string>)
    : (Option<string>, Option<string>)
  {
    match typ
    case None => (linetype, symboltype)
    case Some(t) => if t in LineTypes then (typ, symboltype) else (linetype, typ)
  }

  /** Given only the `type` shorthand, a line-type name draws a curve and no
      symbols, any other name draws symbols and no curve; given nothing,
      symbols are drawn. */
  lemma ShorthandMarkers(t: string)
    ensures var s := Shorthand(Some(t), None, None);
            MarkerChoice(s.0, s.1) == (t !in LineTypes, t in LineTypes)
    ensures var s := Shorthand(None, None, None);
            MarkerChoice(s.0, s.1) == (true, false)
  {
  }

  /** Every line-type name of the shorthand is a name the plotter takes
      unchanged. */
  lemma LineTypesArePlotterNames()
    ensures forall t :: t in LineTypes ==> Renderer.PlLineType(t) == t
  {
  }

  // ---------------------------------------------------------------------
  // _add_symbols, _add_curve and _add_error_bars

  /** The points drawn: all of them, or those at the visible indices. */
  function PickVisible(x: seq<real>, indices: Option<seq<nat>>): seq<real>
    requires indices.Some? ==> IndicesIn(indices.value, |x|)
  {
    match indices
    case None => x
    case Some(w) => Pick(x, w)
  }

  /** The Points item of _add_symbols, with the default symbol when none is set. */
  function SymbolItem(x: seq<real>, y: seq<real>, indices: Option<seq<nat>>, symboltype: Option<string>): PlotItem
    requires |y| == |x| && (indices.Some? ==> IndicesIn(indices.value, |x|))
  {
    Points(PickVisible(x, indices), PickVisible(y, indices), symboltype.GetOr(DefaultSymbol))
  }

  /** The values at each group of indices, group by group. */
  function PickEach(x: seq<real>, groups: seq<seq<nat>>): seq<seq<real>>
    requires forall k :: 0 <= k < |groups| ==> IndicesIn(groups[k], |x|)
  {
    seq(|groups|, k requires 0 <= k < |groups| && IndicesIn(groups[k], |x|) => Pick(x, groups[k]))
  }

  /** One curve per run of indices. */
  function RunCurves(x: seq<real>, y: seq<real>, runs: seq<seq<nat>>, linetype: Option<string>): seq<PlotItem>
    requires |y| == |x| && forall k :: 0 <= k < |runs| ==> IndicesIn(runs[k], |x|)
  {
    seq(|runs|, k requires 0 <= k < |runs| && IndicesIn(runs[k], |x|) => Curve(Pick(x, runs[k]), Pick(y, runs[k]), linetype))
  }

  /** The runs of a mask index what the mask indexes. */
  lemma RunsInRange(w: seq<nat>, n: nat)
    requires IndicesIn(w, n)
    ensures forall k :: 0 <= k < |GroupByOffset(w)| ==> IndicesIn(GroupByOffset(w)[k], n)
  {
    var groups := GroupByOffset(w);
    forall k, j | 0 <= k < |groups| && 0 <= j < |groups[k]| ensures groups[k][j] < n {
      InFlatten(groups, k, j);
    }
  }

  /** The Curve items of _add_curve: one curve through all the points, or
      one for each run of consecutive visible indices. */
  function CurveItems(x: seq<real>, y: seq<real>, indices: Option<seq<nat>>, linetype: Option<string>): seq<PlotItem>
    requires |y| == |x| && (indices.Some? ==> IndicesIn(indices.value, |x|))
  {
    match indices
    case None => [Curve(x, y, linetype)]
    case Some(w) =>
      RunsInRange(w, |x|);
      RunCurves(x, y, GroupByOffset(w), linetype)
  }

  lemma {:induction false} PickFlatten(x: seq<real>, groups: seq<seq<nat>>)
    requires forall k :: 0 <= k < |groups| ==> IndicesIn(groups[k], |x|)
    ensures IndicesIn(Flatten(groups), |x|)
    ensures Flatten(PickEach(x, groups)) == Pick(x, Flatten(groups))
  {
    if groups != [] {
      PickFlatten(x, groups[1..]);
      assert PickEach(x, groups)[1..] == PickEach(x, groups[1..]);
      var f := Flatten(groups);
      assert f == groups[0] + Flatten(groups[1..]);
      assert Pick(x, f) == Pick(x, groups[0]) + Pick(x, Flatten(groups[1..]));
    }
  }

  /** Over visible indices the curves are pieces, one per run of consecutive
      indices: each carries the line type, and read one after the other
      they visit exactly the visible points, in order, each once. */
  lemma CurvesDrawVisible(x: seq<real>, y: seq<real>, w: seq<nat>, linetype: Option<string>)
    requires |y| == |x| && IndicesIn(w, |x|)
    ensures var runs := GroupByOffset(w);
            var items := CurveItems(x, y, Some(w), linetype);
            && |items| == |runs|
            && (forall k :: 0 <= k < |runs| ==> IndicesIn(runs[k], |x|))
            && (forall k :: 0 <= k < |items| ==>
                  items[k].Curve? && items[k].linetype == linetype
                  && items[k].x == PickEach(x, runs)[k] && items[k].y == PickEach(y, runs)[k])
            && Flatten(PickEach(x, runs)) == Pick(x, w)
            && Flatten(PickEach(y, runs)) == Pick(y, w)
  {
    RunsInRange(w, |x|);
    PickFlatten(x, GroupByOffset(w));
    PickFlatten(y, GroupByOffset(w));
  }

  /** The bars of the y errors: through add_log_error_bars on a
      logarithmic y axis, symmetric ones otherwise. */
  function YErrorBarItems(x: seq<real>, y: seq<real>, yerr: Option<seq<real>>, ylog: bool, yrng: Option<seq<real>>)
    : seq<PlotItem>
    requires |y| == |x| && ErrSized(yerr, |x|)
    requires ylog ==> yrng.Some? && |yrng.value| >= 2
  {
    match yerr
    case None => []
    case Some(e) =>
      if ylog then
        match LogErrorBars("y", x, y, e, yrng.value) case None => [] case Some(p) => [p]
      else [SymmetricErrorBarsY(x, y, e)]
  }

  /** The bars of the x errors: on a logarithmic x axis through
      add_log_error_bars called with the axis "y" and the x range, as
      written; symmetric horizontal ones otherwise. */
  function XErrorBarItems(x: seq<real>, y: seq<real>, xerr: Option<seq<real>>, xlog: bool, xrng: Option<seq<real>>)
    : seq<PlotItem>
    requires |y| == |x| && ErrSized(xerr, |x|)
    requires xlog ==> xrng.Some? && |xrng.value| >= 2
  {
    match xerr
    case None => []
    case Some(e) =>
      if xlog then
        match LogErrorBars("y", x, y, e, xrng.value) case None => [] case Some(p) => [p]
      else [SymmetricErrorBarsX(x, y, e)]
  }

  /** The error-bar items of _add_error_bars: the y errors first, then the x errors. */
  function ErrorBarItems(x: seq<real>, y: seq<real>, xerr: Option<seq<real>>, yerr: Option<seq<real>>,
                         xlog: bool, ylog: bool, xrng: Option<seq<real>>, yrng: Option<seq<real>>): seq<PlotItem>
    requires |y| == |x| && ErrSized(xerr, |x|) && ErrSized(yerr, |x|)
    requires xlog ==> xrng.Some? && |xrng.value| >= 2
    requires ylog ==> yrng.Some? && |yrng.value| >= 2
  {
    YErrorBarItems(x, y, yerr, ylog, yrng) + XErrorBarItems(x, y, xerr, xlog, xrng)
  }

  /** A vertical bar set whose bottoms and tops, one per point, are all above zero. */
  predicate VerticalAboveZero(p: PlotItem)
    requires p.ErrorBarsY?
  {
    |p.low| == |p.x| && |p.high| == |p.x| && AllPositive(p.low) && AllPositive(p.high)
  }

  predicate BarsAboveZero(items: seq<PlotItem>) {
    forall k :: 0 <= k < |items| && items[k].ErrorBarsY? ==> VerticalAboveZero(items[k])
  }

  /** The y-error bars: none without y errors, one symmetric set on a linear
      axis, at most one vertical set above zero on a logarithmic one. */
  lemma YErrorBarItemsShape(x: seq<real>, y: seq<real>, yerr: Option<seq<real>>, ylog: bool, yrng: Option<seq<real>>)
    requires |y| == |x| && ErrSized(yerr, |x|)
    requires ylog ==> yrng.Some? && |yrng.value| >= 2 && yrng.value[0] > 0.0
    ensures var items := YErrorBarItems(x, y, yerr, ylog, yrng);
            && |items| <= (if yerr.Some? then 1 else 0)
            && (!ylog ==> items == if yerr.Some? then [SymmetricErrorBarsY(x, y, yerr.value)] else [])
            && BarsAboveZero(items)
  {
    if ylog && yerr.Some? {
      LogErrorBarsAbove(x, y, yerr.value, yrng.value);
    }
  }

  /** The x-error bars: none without x errors, one symmetric set on a linear
      axis, at most one vertical set above zero on a logarithmic one. */
  lemma XErrorBarItemsShape(x: seq<real>, y: seq<real>, xerr: Option<seq<real>>, xlog: bool, xrng: Option<seq<real>>)
    requires |y| == |x| && ErrSized(xerr, |x|)
    requires xlog ==> xrng.Some? && |xrng.value| >= 2 && xrng.value[0] > 0.0
    ensures var items := XErrorBarItems(x, y, xerr, xlog, xrng);
            && |items| <= (if xerr.Some? then 1 else 0)
            && (!xlog ==> items == if xerr.Some? then [SymmetricErrorBarsX(x, y, xerr.value)] else [])
            && BarsAboveZero(items)
  {
    if xlog && xerr.Some? {
      LogErrorBarsAbove(x, y, xerr.value, xrng.value);
    }
  }

  /** No errors, no bars; on linear axes one symmetric bar set per error
      array, y before x; on logarithmic axes at most one bar set per error
      array, every vertical bar strictly above zero. */
  lemma ErrorBarItemsShape(x: seq<real>, y: seq<real>, xerr: Option<seq<real>>, yerr: Option<seq<real>>,
                           xlog: bool, ylog: bool, xrng: Option<seq<real>>, yrng: Option<seq<real>>)
    requires |y| == |x| && ErrSized(xerr, |x|) && ErrSized(yerr, |x|)
    requires xlog ==> xrng.Some? && |xrng.value| >= 2 && xrng.value[0] > 0.0
    requires ylog ==> yrng.Some? && |yrng.value| >= 2 && yrng.value[0] > 0.0
    ensures var items := ErrorBarItems(x, y, xerr, yerr, xlog, ylog, xrng, yrng);
            && (xerr.None? && yerr.None? ==> items == [])
            && (!xlog && !ylog ==>
                  items == (if yerr.Some? then [SymmetricErrorBarsY(x, y, yerr.value)] else [])
                           + (if xerr.Some? then [SymmetricErrorBarsX(x, y, xerr.value)] else []))
            && |items| <= (if xerr.Some? then 1 else 0) + (if yerr.Some? then 1 else 0)
            && BarsAboveZero(items)
  {
    var ys: seq<PlotItem> := YErrorBarItems(x, y, yerr, ylog, yrng);
    var xs: seq<PlotItem> := XErrorBarItems(x, y, xerr, xlog, xrng);
    YErrorBarItemsShape(x, y, yerr, ylog, yrng);
    XErrorBarItemsShape(x, y, xerr, xlog, xrng);
    forall k | 0 <= k < |ys + xs| && (ys + xs)[k].ErrorBarsY? ensures VerticalAboveZero((ys + xs)[k]) {
      if k >= |ys| {
        assert (ys + xs)[k] == xs[k - |ys|];
      }
    }
  }

  /** The vertical log bars: one per point whose top is above zero, every
      bottom and top strictly above zero when the range starts above zero. */
  lemma LogErrorBarsAbove(x: seq<real>, y: seq<real>, err: seq<real>, prange: seq<real>)
    requires |y| == |x| && |err| == |x| && |prange| >= 2 && prange[0] > 0.0
    ensures var p := LogErrorBars("y", x, y, err, prange);
            p.Some? ==> p.value.ErrorBarsY? && VerticalAboveZero(p.value)
  {
    if LogBars(y, err, prange).Some? {
      LogBarsPositive(y, err, prange, LogBars(y, err, prange).value);
    }
  }

  // ---------------------------------------------------------------------
  // _add_markers and the whole construction

  /** Everything _add_markers adds, in order: the symbols, the curves, the
      error bars. */
  function Markers(x: seq<real>, y: seq<real>, xerr: Option<seq<real>>, yerr: Option<seq<real>>,
                   v: Visible, xlog: bool, ylog: bool, linetype: Option<string>, symboltype: Option<string>)
    : seq<PlotItem>
    requires Consistent(x, y, xerr, yerr, v, xlog, ylog)
  {
    var c := MarkerChoice(linetype, symboltype);
    (if c.0 then [SymbolItem(x, y, v.indices, symboltype)] else [])
    + (if c.1 then CurveItems(x, y, v.indices, linetype) else [])
    + ErrorBarItems(x, y, xerr, yerr, xlog, ylog, v.xrng, v.yrng)
  }

  /** The items `ScatterPlot(xin, yin, **keys)` adds to its plot, or the
      error its construction raises. */
  function Scatter(keys: Options, xin: seq<real>, yin: seq<real>): Result<seq<PlotItem>> {
    if CheckSizes(|xin|, |yin|, keys.xerr, keys.yerr).Fail? then Err(SizeMismatch)
    else
      var xlog := keys.xlog.GetOr(false);
      var ylog := keys.ylog.GetOr(false);
      match RangeAndMask(xin, yin, keys.xerr, keys.yerr, xlog, ylog, keys.xrange, keys.yrange)
      case Err(e) => Err(e)
      case Ok(v) =>
        var t := Shorthand(keys.typ, keys.linetype, keys.symboltype);
        Ok(Markers(xin, yin, keys.xerr, keys.yerr, v, xlog, ylog, t.0, t.1))
  }

  /** The options `__init__` leaves behind once the markers are added: both
      log flags filled in, the marker types resolved from the shorthand, and
      the default symbol set when symbols are drawn without one. Every
      settled set of options draws symbols or a line. */
  function SettledOptions(keys: Options): (r: Options)
    ensures r.xerr == keys.xerr && r.yerr == keys.yerr && r.xrange == keys.xrange && r.yrange == keys.yrange
    ensures r.typ == keys.typ
    ensures r.xlog == Some(keys.xlog.GetOr(false)) && r.ylog == Some(keys.ylog.GetOr(false))
    ensures r.linetype == Shorthand(keys.typ, keys.linetype, keys.symboltype).0
    ensures r.symboltype.None? ==> r.linetype.Some?
  {
    var t := Shorthand(keys.typ, keys.linetype, keys.symboltype);
    var sym := if MarkerChoice(t.0, t.1).0 then Some(t.1.GetOr(DefaultSymbol)) else t.1;
    keys.(xlog := Some(keys.xlog.GetOr(false)), ylog := Some(keys.ylog.GetOr(false)), linetype := t.0, symboltype := sym)
  }

  /** Construction fails exactly when the sizes disagree or RangeAndMask
      fails (which `RangeAndMaskErrors` characterises: a bad or missing log
      range, or no visible point); with linear axes and matching sizes it
      always succeeds. */
  lemma ScatterFails(keys: Options, xin: seq<real>, yin: seq<real>)
    ensures Scatter(keys, xin, yin).Err? <==>
              || CheckSizes(|xin|, |yin|, keys.xerr, keys.yerr).Fail?
              || RangeAndMask(xin, yin, keys.xerr, keys.yerr, keys.xlog.GetOr(false), keys.ylog.GetOr(false),
                              keys.xrange, keys.yrange).Err?
    ensures CheckSizes(|xin|, |yin|, keys.xerr, keys.yerr).Pass? && !keys.xlog.GetOr(false) && !keys.ylog.GetOr(false)
            ==> Scatter(keys, xin, yin).Ok?
    ensures Scatter(keys, xin, yin).Err? ==>
              Scatter(keys, xin, yin).error in {SizeMismatch, ShortRange, NonPositiveRange, NoPositiveValues, NoPointsInRange}
  {
    if CheckSizes(|xin|, |yin|, keys.xerr, keys.yerr).Pass? {
      RangeAndMaskVisible(xin, yin, keys.xerr, keys.yerr, keys.xlog.GetOr(false), keys.ylog.GetOr(false),
                          keys.xrange, keys.yrange);
    }
  }

  predicate AllPositive(s: seq<real>) {
    forall j :: 0 <= j < |s| ==> s[j] > 0.0
  }

  /** On each logarithmic axis, every symbol and curve coordinate is above zero. */
  predicate MarksPositive(items: seq<PlotItem>, xlog: bool, ylog: bool) {
    forall k :: 0 <= k < |items| && (items[k].Points? || items[k].Curve?) ==>
      (xlog ==> AllPositive(items[k].x)) && (ylog ==> AllPositive(items[k].y))
  }

  lemma MarksPositiveConcat(a: seq<PlotItem>, b: seq<PlotItem>, xlog: bool, ylog: bool)
    requires MarksPositive(a, xlog, ylog) && MarksPositive(b, xlog, ylog)
    ensures MarksPositive(a + b, xlog, ylog)
  {
    forall k | 0 <= k < |a + b| ensures (a + b)[k] == if k < |a| then a[k] else b[k - |a|] {
    }
  }

  /** Values picked at indices that are all visible are all above zero when
      every visible value is. */
  lemma PickedPositive(x: seq<real>, w: seq<nat>, v: seq<nat>)
    requires IndicesIn(v, |x|)
    requires forall j :: 0 <= j < |v| ==> v[j] in w
    requires forall i :: 0 <= i < |x| && i in w ==> x[i] > 0.0
    ensures AllPositive(Pick(x, v))
  {
  }

  /** The symbols drawn at visible points are above zero on each
      logarithmic axis when every visible point is. */
  lemma SymbolPositive(x: seq<real>, y: seq<real>, w: seq<nat>, xlog: bool, ylog: bool, symboltype: Option<string>)
    requires |y| == |x| && IndicesIn(w, |x|)
    requires xlog ==> forall i :: 0 <= i < |x| && i in w ==> x[i] > 0.0
    requires ylog ==> forall i :: 0 <= i < |x| && i in w ==> y[i] > 0.0
    ensures MarksPositive([SymbolItem(x, y, Some(w), symboltype)], xlog, ylog)
  {
    assert forall j :: 0 <= j < |w| ==> w[j] in w;
    if xlog {
      PickedPositive(x, w, w);
    }
    if ylog {
      PickedPositive(y, w, w);
    }
  }

  /** Every curve drawn through a run of visible points is above zero on
      each logarithmic axis when every visible point is. */
  lemma CurvesPositive(x: seq<real>, y: seq<real>, w: seq<nat>, xlog: bool, ylog: bool, linetype: Option<string>)
    requires |y| == |x| && IndicesIn(w, |x|)
    requires xlog ==> forall i :: 0 <= i < |x| && i in w ==> x[i] > 0.0
    requires ylog ==> forall i :: 0 <= i < |x| && i in w ==> y[i] > 0.0
    ensures MarksPositive(CurveItems(x, y, Some(w), linetype), xlog, ylog)
  {
    var runs := GroupByOffset(w);
    RunsInRange(w, |x|);
    forall m | 0 <= m < |runs|
      ensures (xlog ==> AllPositive(Pick(x, runs[m]))) && (ylog ==> AllPositive(Pick(y, runs[m])))
    {
      forall j | 0 <= j < |runs[m]| ensures runs[m][j] in w {
        InFlatten(runs, m, j);
      }
      if xlog {
        PickedPositive(x, w, runs[m]);
      }
      if ylog {
        PickedPositive(y, w, runs[m]);
      }
    }
  }

  /** The symbols and curves drawn use only visible points: on a
      logarithmic axis every coordinate they carry on that axis is above zero. */
  lemma MarkersPositive(x: seq<real>, y: seq<real>, xerr: Option<seq<real>>, yerr: Option<seq<real>>,
                        v: Visible, xlog: bool, ylog: bool, linetype: Option<string>, symboltype: Option<string>)
    requires Consistent(x, y, xerr, yerr, v, xlog, ylog)
    requires v.indices.Some?
    requires xlog ==> forall i :: 0 <= i < |x| && i in v.indices.value ==> x[i] > 0.0
    requires ylog ==> forall i :: 0 <= i < |x| && i in v.indices.value ==> y[i] > 0.0
    ensures MarksPositive(Markers(x, y, xerr, yerr, v, xlog, ylog, linetype, symboltype), xlog, ylog)
  {
    var w := v.indices.value;
    var c := MarkerChoice(linetype, symboltype);
    var sym := if c.0 then [SymbolItem(x, y, v.indices, symboltype)] else [];
    var cur := if c.1 then CurveItems(x, y, v.indices, linetype) else [];
    var bars := ErrorBarItems(x, y, xerr, yerr, xlog, ylog, v.xrng, v.yrng);
    SymbolPositive(x, y, w, xlog, ylog, symboltype);
    CurvesPositive(x, y, w, xlog, ylog, linetype);
    ErrorBarItemsNoMarks(x, y, xerr, yerr, xlog, ylog, v.xrng, v.yrng);
    MarksPositiveConcat(sym, cur, xlog, ylog);
    MarksPositiveConcat(sym + cur, bars, xlog, ylog);
  }

  lemma ErrorBarItemsNoMarks(x: seq<real>, y: seq<real>, xerr: Option<seq<real>>, yerr: Option<seq<real>>,
                             xlog: bool, ylog: bool, xrng: Option<seq<real>>, yrng: Option<seq<real>>)
    requires |y| == |x| && ErrSized(xerr, |x|) && ErrSized(yerr, |x|)
    requires xlog ==> xrng.Some? && |xrng.value| >= 2
    requires ylog ==> yrng.Some? && |yrng.value| >= 2
    ensures forall k :: 0 <= k < |ErrorBarItems(x, y, xerr, yerr, xlog, ylog, xrng, yrng)| ==>
              var p := ErrorBarItems(x, y, xerr, yerr, xlog, ylog, xrng, yrng)[k];
              !p.Points? && !p.Curve?
  {
  }

  /** On a logarithmic axis nothing at or below zero is drawn: whatever a
      successful construction draws as symbols or curves lies above zero on
      every such axis. */
  lemma ScatterLogPositive(keys: Options, xin: seq<real>, yin: seq<real>)
    requires Scatter(keys, xin, yin).Ok?
    ensures MarksPositive(Scatter(keys, xin, yin).value, keys.xlog == Some(true), keys.ylog == Some(true))
  {
    var xlog := keys.xlog.GetOr(false);
    var ylog := keys.ylog.GetOr(false);
    var v := RangeAndMask(xin, yin, keys.xerr, keys.yerr, xlog, ylog, keys.xrange, keys.yrange).value;
    if xlog || ylog {
      RangeAndMaskVisible(xin, yin, keys.xerr, keys.yerr, xlog, ylog, keys.xrange, keys.yrange);
      RangeAndMaskPositive(xin, yin, keys.xerr, keys.yerr, xlog, ylog, keys.xrange, keys.yrange);
      var t := Shorthand(keys.typ, keys.linetype, keys.symboltype);
      MarkersPositive(xin, yin, keys.xerr, keys.yerr, v, xlog, ylog, t.0, t.1);
    }
  }

  lemma AppendAssoc<T>(a: seq<T>, b: seq<T>, c: seq<T>, d: seq<T>)
    ensures a + b + c + d == a + (b + c + d)
  {
  }

  // ---------------------------------------------------------------------
  // The ScatterPlot object

  class ScatterPlot {
    var options: Options
    var x: seq<real>
    var y: seq<real>
    var xerr: Option<seq<real>>
    var yerr: Option<seq<real>>
    var indices: Option<seq<nat>>
    var xrng: Option<seq<real>>
    var yrng: Option<seq<real>>
    /** The items added to the plot object, in order. */
    var added: seq<PlotItem>

    /** After _set_pts: the points and their errors have one size. */
    predicate PointsSet()
      reads this`x, this`y, this`xerr, this`yerr
    {
      |y| == |x| && ErrSized(xerr, |x|) && ErrSized(yerr, |x|)
    }

    /** After _set_range_and_subpts: the log flags are set and the visible
      indices and ranges fit the points. */
    predicate RangeSet()
      reads this`options, this`x, this`y, this`xerr, this`yerr, this`indices, this`xrng, this`yrng
    {
      && options.xlog.Some? && options.ylog.Some?
      && Consistent(x, y, xerr, yerr, Visible(indices, xrng, yrng), options.xlog.value, options.ylog.value)
    }

    /** `self.update(keys)` on a new, empty object. */
    constructor (keys: Options)
      ensures options == keys && added == []
      ensures x == [] && y == [] && xerr.None? && yerr.None?
      ensures indices.None? && xrng.None? && yrng.None?
    {
      options := keys;
      x, y := [], [];
      xerr, yerr := None, None;
      indices := None;
      xrng, yrng := None, None;
      added := [];
    }

    /** _set_pts: keeps the points, then checks the sizes; the errors are
      kept only when every size agrees. */
    method SetPts(xin: seq<real>, yin: seq<real>) returns (r: Outcome)
      modifies this`x, this`y, this`xerr, this`yerr
      ensures x == xin && y == yin
      ensures r == CheckSizes(|xin|, |yin|, options.xerr, options.yerr)
      ensures r.Pass? ==> xerr == options.xerr && yerr == options.yerr && PointsSet()
      ensures r.Fail? ==> xerr == old(xerr) && yerr == old(yerr)
    {
      x := xin;
      y := yin;
      if |x| != |y| {
        return Fail(SizeMismatch);
      }
      var xe := options.xerr;
      var ye := options.yerr;
      if xe.Some? && |xe.value| != |x| {
        return Fail(SizeMismatch);
      }
      if ye.Some? && |ye.value| != |x| {
        return Fail(SizeMismatch);
      }
      xerr := xe;
      yerr := ye;
      return Pass;
    }

    /** _set_log_axes: an absent log flag becomes false. */
    method SetLogAxes()
      modifies this`options
      ensures options == old(options).(xlog := Some(old(options).xlog.GetOr(false)),
                                       ylog := Some(old(options).ylog.GetOr(false)))
    {
      options := options.(xlog := Some(options.xlog.GetOr(false)), ylog := Some(options.ylog.GetOr(false)));
    }

    /** _set_range_and_subpts: the ranges and visible indices of RangeAndMask,
      or its error with nothing changed. */
    method SetRangeAndSubpts() returns (r: Outcome)
      requires PointsSet() && options.xlog.Some? && options.ylog.Some?
      modifies this`indices, this`xrng, this`yrng
      ensures var m := RangeAndMask(x, y, xerr, yerr, options.xlog.value, options.ylog.value, options.xrange, options.yrange);
              && (m.Err? ==> r == Fail(m.error) && indices == old(indices) && xrng == old(xrng) && yrng == old(yrng))
              && (m.Ok? ==> r == Pass && Visible(indices, xrng, yrng) == m.value && RangeSet())
    {
      var xlog := options.xlog.value;
      var ylog := options.ylog.value;
      var xr := options.xrange;
      var yr := options.yrange;
      var w: Option<seq<nat>> := None;
      if xlog && ylog {
        var rx := LogPlotRange(x, xerr, xr, false);
        if rx.Err? {
          return Fail(rx.error);
        }
        var ry := LogPlotRange(y, yerr, yr, false);
        if ry.Err? {
          return Fail(ry.error);
        }
        xr := Some(rx.value.range);
        yr := Some(ry.value.range);
        w := Some(Where(BothAboveMask(x, y, xr.value[0], yr.value[0])));
      } else if xlog {
        var rx := LogPlotRange(x, xerr, xr, false);
        if rx.Err? {
          return Fail(rx.error);
        }
        xr := Some(rx.value.range);
        w := Some(Where(AboveMask(x, xr.value[0])));
      } else if ylog {
        var ry := LogPlotRange(y, yerr, yr, false);
        if ry.Err? {
          return Fail(ry.error);
        }
        yr := Some(ry.value.range);
        w := Some(Where(AboveMask(y, yr.value[0])));
      }
      if w.Some? && w.value == [] {
        return Fail(NoPointsInRange);
      }
      indices := w;
      xrng := xr;
      yrng := yr;
      return Pass;
    }

    /** _set_markers_from_shorthand. */
    method SetMarkersFromShorthand()
      modifies this`options
      ensures var t := Shorthand(old(options).typ, old(options).linetype, old(options).symboltype);
              options == old(options).(linetype := t.0, symboltype := t.1)
    {
      var typ := options.typ;
      if typ.Some? {
        if typ.value in LineTypes {
          options := options.(linetype := typ);
        } else {
          options := options.(symboltype := typ);
        }
      }
    }

    /** _add_symbols: sets the default symbol when none is set, then adds the
      visible points. */
    method AddSymbols()
      requires RangeSet()
      modifies this`options, this`added
      ensures options == old(options).(symboltype := Some(old(options).symboltype.GetOr(DefaultSymbol)))
      ensures added == old(added) + [SymbolItem(x, y, indices, old(options).symboltype)]
      ensures RangeSet()
    {
      if options.symboltype.None? {
        options := options.(symboltype := Some(DefaultSymbol));
      }
      var st := options.symboltype.value;
      if indices.None? {
        added := added + [Points(x, y, st)];
      } else {
        added := added + [Points(Pick(x, indices.value), Pick(y, indices.value), st)];
      }
    }

    /** _add_curve: one curve, or one curve per run of consecutive visible
      indices, in order. */
    method AddCurve()
      requires RangeSet()
      modifies this`added
      ensures RangeSet()
      ensures added == old(added) + CurveItems(x, y, indices, options.linetype)
    {
      if indices.None? {
        added := added + [Curve(x, y, options.linetype)];
        return;
      }
      var runs := GroupByOffset(indices.value);
      RunsInRange(indices.value, |x|);
      var k := 0;
      while k < |runs|
        invariant 0 <= k <= |runs|
        invariant added == old(added) + RunCurves(x, y, runs[..k], options.linetype)
      {
        var run := runs[k];
        assert RunCurves(x, y, runs[..k + 1], options.linetype)
               == RunCurves(x, y, runs[..k], options.linetype) + [Curve(Pick(x, run), Pick(y, run), options.linetype)];
        added := added + [Curve(Pick(x, run), Pick(y, run), options.linetype)];
        k := k + 1;
      }
      assert runs[..k] == runs;
    }

    /** _add_error_bars: the y error bars, then the x error bars. */
    method AddErrorBars()
      requires RangeSet()
      modifies this`added
      ensures RangeSet()
      ensures added == old(added) + ErrorBarItems(x, y, xerr, yerr, options.xlog.value, options.ylog.value, xrng, yrng)
    {
      AddYErrorBars();
      AddXErrorBars();
    }

    /** The y-error half of _add_error_bars. */
    method AddYErrorBars()
      requires RangeSet()
      modifies this`added
      ensures added == old(added) + YErrorBarItems(x, y, yerr, options.ylog.value, yrng)
    {
      if yerr.Some? {
        if options.ylog.value {
          var p := LogErrorBars("y", x, y, yerr.value, yrng.value);
          if p.Some? {
            added := added + [p.value];
          }
        } else {
          added := added + [SymmetricErrorBarsY(x, y, yerr.value)];
        }
      }
    }

    /** The x-error half of _add_error_bars; on a logarithmic x axis it calls
      add_log_error_bars with the axis "y", as written. */
    method AddXErrorBars()
      requires RangeSet()
      modifies this`added
      ensures added == old(added) + XErrorBarItems(x, y, xerr, options.xlog.value, xrng)
    {
      if xerr.Some? {
        if options.xlog.value {
          var p := LogErrorBars("y", x, y, xerr.value, xrng.value);
          if p.Some? {
            added := added + [p.value];
          }
        } else {
          added := added + [SymmetricErrorBarsX(x, y, xerr.value)];
        }
      }
    }

    /** _add_markers, with the marker choice read as the absent keys it
      documents: symbols, then curves, then error bars. */
    method AddMarkers()
      requires RangeSet()
      modifies this`options, this`added
      ensures options == old(options).(symboltype :=
                if MarkerChoice(old(options).linetype, old(options).symboltype).0
                then Some(old(options).symboltype.GetOr(DefaultSymbol))
                else old(options).symboltype)
      ensures options.xlog == old(options).xlog && options.ylog == old(options).ylog && RangeSet()
      ensures added == old(added) + Markers(x, y, xerr, yerr, Visible(indices, xrng, yrng),
                                            options.xlog.value, options.ylog.value,
                                            old(options).linetype, old(options).symboltype)
    {
      var c := MarkerChoice(options.linetype, options.symboltype);
      ghost var v := Visible(indices, xrng, yrng);
      ghost var sym := if c.0 then [SymbolItem(x, y, indices, options.symboltype)] else [];
      ghost var cur := if c.1 then CurveItems(x, y, indices, options.linetype) else [];
      ghost var bars := ErrorBarItems(x, y, xerr, yerr, options.xlog.value, options.ylog.value, xrng, yrng);
      ghost var all := Markers(x, y, xerr, yerr, v, options.xlog.value, options.ylog.value, options.linetype, options.symboltype);
      assert all == sym + cur + bars;
      if c.0 {
        AddSymbols();
      }
      assert added == old(added) + sym;
      if c.1 {
        AddCurve();
      }
      assert added == old(added) + sym + cur;
      assert options.xlog == old(options).xlog && options.ylog == old(options).ylog;
      AddErrorBars();
      AppendAssoc(old(added), sym, cur, bars);
    }

    /** The rest of `__init__` after `self.update(keys)`: set the points, the
      log flags, the ranges and visible points, the marker types, and add
      the markers; the first failing step stops it, leaving the points and
      log flags it has already set and nothing else changed. */
    method Build(xin: seq<real>, yin: seq<real>) returns (r: Outcome)
      modifies this
      ensures x == xin && y == yin
      ensures var s := Scatter(old(options), xin, yin);
              && (r.Pass? <==> s.Ok?)
              && (s.Err? ==> r == Fail(s.error))
              && (s.Ok? ==> added == old(added) + s.value)
      ensures var k := old(options);
              && (CheckSizes(|xin|, |yin|, k.xerr, k.yerr).Fail? ==>
                    && options == k && added == old(added) && xerr == old(xerr) && yerr == old(yerr)
                    && indices == old(indices) && xrng == old(xrng) && yrng == old(yrng))
              && (CheckSizes(|xin|, |yin|, k.xerr, k.yerr).Pass? && Scatter(k, xin, yin).Err? ==>
                    && options == k.(xlog := Some(k.xlog.GetOr(false)), ylog := Some(k.ylog.GetOr(false)))
                    && xerr == k.xerr && yerr == k.yerr && added == old(added)
                    && indices == old(indices) && xrng == old(xrng) && yrng == old(yrng))
              && (Scatter(k, xin, yin).Ok? ==>
                    && xerr == k.xerr && yerr == k.yerr
                    && options == SettledOptions(k)
                    && Visible(indices, xrng, yrng) ==
                         RangeAndMask(xin, yin, k.xerr, k.yerr, k.xlog.GetOr(false), k.ylog.GetOr(false), k.xrange, k.yrange).value)
    {
      r := SetPts(xin, yin);
      if r.Fail? {
        return;
      }
      SetLogAxes();
      r := SetRangeAndSubpts();
      if r.Fail? {
        return;
      }
      SetMarkersFromShorthand();
      AddMarkers();
    }
  }
}
